=== FILE: README.md ===
# edulingo backend core in Dafny

A model of the request handlers at the core of the edulingo e-learning backend,
an Express application over a MongoDB store with Mongoose schemas. It covers:

- the two role gates, `adminMiddleware` and `teacherMiddleware`;
- the login chain: the required-field check, the account lookup by normalised
  email, the password comparison, the active-status check, the signing-key
  check and the token;
- the user schema's pre-save hashing guard and its setters;
- the quiz question validator, quiz create/update/delete/read, the paginated
  quiz listing and the four question-list edits;
- the public course catalog, teacher ownership of courses and course
  create/view/update/delete;
- the admin user routes: list, read, create, update, delete;
- the feedback routes: create, list own, edit, soft delete.

Every handler is a pure function. It takes the relevant collection as a
`map<Id, Record>`, the signed-in caller (`None` when the authentication
middleware set nothing), the decoded path parameter and the body, and returns
the HTTP status together with the collection after the call. Reads return the
status and the data. A gate answers `Next` or `Halt(status)`.

Collaborators the handlers call but that are not modelled are parameters:

- the bcrypt hash, `Hasher`, returning `None` on failure;
- the bcrypt comparison, `Comparer`;
- the JWT signer, `Signer`;
- the JWT secret, which may be unset;
- the id of a new document, `newId`;
- the creation time, `now`.

A path parameter is `Malformed` when `ObjectId.isValid` rejects it.
`WellFormed(id, canonical)` records whether the text was the id's own 24-digit
hexadecimal spelling.

Mongoose's `find` returns documents in natural order, modelled as ascending id
(`Ids.Find`). `findOne` returns the first of them (`Ids.FindFirst`). A `sort`
on a key is a stable sort of that sequence (`Sorting.SortBy`).

Modules, in dependency order:

| module | contents |
|---|---|
| `Wrappers` | `Option` |
| `Text` | the `trim` and `lowercase` setters |
| `Ids` | `Find` and `FindFirst` |
| `Sorting` | stable sort |
| `Http` | statuses and outcomes |
| `Accounts` | `models/User.js` |
| `Gates` | the two middlewares |
| `Auth` | `routes/authRoutes.js` |
| `QuizModel` | `models/Quiz.js` |
| `QuizRoutes` | `routes/quizRoutes.js` |
| `CourseModel` | `models/Course.js` |
| `CourseRoutes` | `routes/courseRoutes.js` |
| `UserRoutes` | `routes/userRoutes.js` |
| `FeedbackRoutes` | `routes/feedbackRoutes.js` |

Some behaviour of the code that the model keeps:

- A duplicate email on user create or update is answered 400.
- A missing JWT secret is answered 500, on each login.
- The token lives 24 hours (`expiresIn: '24h'`).
- Feedback can be edited and deleted only by its owner. The routes have no
  admin override.
- `routes/authRoutes.js` defines only login and logout.
- Mongoose validates the whole document on every save, while the `trim` and
  `lowercase` setters run only when a value is assigned. A stored document that
  was written by other means, with a required path left empty or a number out
  of its bounds, can therefore fail validation on a later edit, and the quiz,
  course and user routes answer such an edit as the code does: 500 for the
  question edits and the course update, 400 for the quiz update and the user
  update. The save checks only what the schema's validators check, so a stored
  user whose name is untrimmed or whose email is upper-case is still saved by
  an update.

## Model

| member | source | states |
|---|---|---|
| Gates.AdminGate | edulingo/middleware/adminMiddleware.js:3-15 | no caller is 401 and a non-admin caller is 403; the request passes exactly when the caller's role is admin |
| Gates.TeacherGate | edulingo/middleware/teacherMiddleware.js:3-16 | no caller is 401 and a learner is 403; the request passes exactly when the role is teacher or admin |
| Gates.GatesAreTotal | edulingo/middleware/adminMiddleware.js:5-14 | each gate either passes or halts with 401 or 403, and no other status |
| Gates.AdminGateImpliesTeacherGate | edulingo/middleware/teacherMiddleware.js:10-16 | whoever passes the admin gate passes the teacher gate; a caller the teacher gate stops gets the same status from the admin gate |
| Gates.AdminGateStrictlyStronger | edulingo/middleware/adminMiddleware.js:10-12 | a teacher passes the teacher gate and is refused 403 by the admin gate |
| Text.Trim | edulingo/models/User.js:7-11 | the `trim` setter: the result has no surrounding spaces |
| Text.TrimIsSlice | edulingo/models/User.js:7-11 | the trimmed string is the run of the input that starts after its leading spaces; every character before and after that run is a space |
| Text.TrimEmptyIffBlank | edulingo/routes/quizRoutes.js:10-26 | a string trims to empty exactly when it is all spaces, which is the blank test `v.trim() === ''` |
| Text.TrimIdempotent | edulingo/models/Quiz.js:6-11 | trimming a trimmed value changes nothing, so re-saving a document does not change its strings |
| Text.TrimmedIsFixed | edulingo/models/Quiz.js:6-11 | a value without surrounding spaces is stored as given |
| Text.Lower | edulingo/models/User.js:13-19 | the `lowercase` setter maps every character to its lower-case form, position by position |
| Text.Normalize | edulingo/models/User.js:13-19 | the stored email is the input's characters between its leading and trailing spaces, each lower-cased; so it is lower-case and has no surrounding spaces |
| Text.AssignTrimmed | edulingo/routes/quizRoutes.js:127-131 | `if (v !== undefined) doc.path = v` on a trimmed path: an absent value keeps the stored one, a given one is stored trimmed |
| Text.NormalizeFixesNormalized | edulingo/routes/authRoutes.js:19 | a stored email normalises to itself, so a lookup by normalised email finds the stored one |
| Ids.Find | edulingo/routes/quizRoutes.js:39 | a query returns exactly the stored documents the filter accepts, each once, in ascending id order |
| Ids.FindFirst | edulingo/routes/authRoutes.js:19 | `findOne` returns nothing exactly when no document matches, otherwise the first match |
| Sorting.SortBy | edulingo/routes/feedbackRoutes.js:50-52 | `.sort` returns a permutation of its input ordered by the key |
| Accounts.ParseRole | edulingo/models/User.js:25-29 | the role enum accepts exactly "admin", "teacher" and "learner", and the value stored names the string given |
| Accounts.ParseStatus | edulingo/models/User.js:34-38 | the status enum accepts exactly "active", "inactive" and "suspended" |
| Accounts.ParseGender | edulingo/models/User.js:30-33 | the gender enum accepts exactly "male", "female" and "other" |
| Accounts.EnumNamesRoundTrip | edulingo/models/User.js:25-38 | every role, status and gender is stored under a name that the enum validator accepts back as the same value |
| Accounts.PreSave | edulingo/models/User.js:46-61 | the hook changes nothing but the password; it keeps the password when it is unmodified, empty or already starts with a bcrypt prefix; otherwise it stores the hash, and a hash failure aborts the save |
| Accounts.PreSaveIdempotent | edulingo/models/User.js:50-53 | a second save of a hashed user does not hash again, whether or not the password is marked modified |
| Accounts.PreSaveStoresDigest | edulingo/models/User.js:55-58 | with a hash that yields bcrypt text, a saved non-empty password carries a bcrypt prefix |
| Auth.Login | edulingo/routes/authRoutes.js:8-75 | the ordered checks: 400 exactly when email or password is missing; 401 when no account has the normalised email or the password does not match; 403 for a matching password on a non-active account; 500 when the secret is unset; otherwise 200 with a token for that account; a session exists exactly on 200 |
| Auth.UnknownEmailLikeWrongPassword | edulingo/routes/authRoutes.js:21-34 | a wrong password is answered exactly as if the email were unknown, so the answer does not reveal which emails exist |
| Auth.UniqueAccount | edulingo/routes/authRoutes.js:19 | with unique emails, the lookup finds the one account with that email |
| Auth.InactiveAccountNeedsPasswordFirst | edulingo/routes/authRoutes.js:29-41 | the status of a non-active account is revealed (403) only after the right password; a wrong one is still 401 |
| Auth.SecretOnlyMattersLast | edulingo/routes/authRoutes.js:45-50 | the secret and signer change only the outcome of a request that passed every other check |
| Auth.LoginIssuesToken | edulingo/routes/authRoutes.js:52-65 | the right password on an active account, with a secret set, gives 200 and a token signed over that account's id and role, valid 24 hours |
| Auth.Logout | edulingo/routes/authRoutes.js:79-84 | logout always succeeds and changes no stored data |
| QuizModel.ParseAnswer | edulingo/models/Quiz.js:14 | `correctAnswer` accepts exactly "A", "B", "C" and "D" |
| QuizModel.ParseQuizStatus | edulingo/models/Quiz.js:31 | the quiz status enum accepts exactly "draft", "published" and "archived" |
| QuizRoutes.FirstBlankOption | edulingo/routes/quizRoutes.js:16-22 | the option loop stops at the first blank option and finds none exactly when all are non-blank |
| QuizRoutes.FirstBlankIsFirstKey | edulingo/routes/quizRoutes.js:16-22 | over the keys A, B, C, D the loop reports key k exactly when k is blank and every earlier key is not |
| QuizRoutes.ValidateQuestion | edulingo/routes/quizRoutes.js:10-26 | no error exactly for a well-formed question (non-blank text, four non-blank options, answer in A-D); otherwise the error of the first failing check in source order |
| QuizRoutes.ToQuestion | edulingo/models/Quiz.js:4-17 | a validated question is stored with its strings trimmed and satisfies the question schema |
| QuizRoutes.StoredQuestionRoundTrip | edulingo/routes/quizRoutes.js:251-257 | a stored question read back as a plain object validates again and is stored back unchanged |
| QuizRoutes.FirstInvalid | edulingo/routes/quizRoutes.js:83-87 | the loop finds the first element that fails validation, or none exactly when all pass |
| QuizRoutes.CheckQuestions | edulingo/routes/quizRoutes.js:79-88 | an absent list passes, a non-array is refused, and an array passes exactly when all its elements are well formed; a refusal names the first bad index and its error |
| QuizRoutes.ToQuestions | edulingo/routes/quizRoutes.js:92-97 | a validated list is stored element by element, each element valid |
| QuizRoutes.NewQuiz | edulingo/routes/quizRoutes.js:90-101 | the document saves exactly when the title trims to non-empty and the status is absent or in the enum; it is valid and belongs to the caller; the title, description, status and questions are the given ones after their setters, defaulting to an empty description, published and an empty list; a truthy course title and teacher name are stored trimmed and a falsy one is left unset; the teacher id is as given |
| QuizRoutes.CreateQuiz | edulingo/routes/quizRoutes.js:70-108 | the admin gate, then 400 exactly for a missing title or a bad question list, then 500 for a document the schema rejects or a taken id; 201 exactly when every check passes, and only then the store changes, by the new quiz under the new id |
| QuizRoutes.Overlay | edulingo/routes/quizRoutes.js:127-145 | the update saves exactly when the status is absent or in the enum, the title (the given one after trim, else the stored one) is non-empty, and the stored questions pass the schema unless a new list is given; an absent field and the creator are kept; a given string is stored trimmed, a given teacher id, status or list as given (the list converted); an overlay of a valid quiz is valid |
| QuizRoutes.OverlayOfValidQuiz | edulingo/routes/quizRoutes.js:127-145 | for a quiz saved through the routes, the overlay fails exactly for a title that trims to nothing or a status outside the enum |
| QuizRoutes.UpdateQuiz | edulingo/routes/quizRoutes.js:111-155 | the admin gate, then 400 for a bad id, 404 for a missing quiz, 400 for a bad list, 400 for a document that fails validation on save (the `ValidationError` branch); 200 exactly when all pass, and only then that quiz changes, to its overlay |
| QuizRoutes.DeleteQuiz | edulingo/routes/quizRoutes.js:158-182 | the admin gate, then 400 for a malformed id and 404 for a missing quiz, 200 exactly when the quiz exists; on 200 exactly the target quiz is removed and every other is unchanged |
| QuizRoutes.GetQuiz | edulingo/routes/quizRoutes.js:48-67 | 200 with the stored quiz exactly when the id is well formed and stored; otherwise no data, and 400 for a malformed id, 404 for a missing quiz |
| QuizRoutes.Window | edulingo/routes/quizRoutes.js:38-39 | `skip` then `limit` return the consecutive run starting at the offset, as long as the limit allows (limit 0 is no limit, a negative limit counts as its absolute value) |
| QuizRoutes.ListQuizzes | edulingo/routes/quizRoutes.js:29-45 | a negative offset is 500; otherwise 200 with the page window of the matching quizzes and the count of all matches |
| QuizRoutes.ListedQuizzesMatch | edulingo/routes/quizRoutes.js:33-39 | every listed quiz is stored under its id and matches the filter |
| QuizRoutes.PagesAreDisjoint | edulingo/routes/quizRoutes.js:38-39 | two different pages of the same listing share no quiz |
| QuizRoutes.SaveQuiz | edulingo/routes/quizRoutes.js:202 | a quiz that fails validation is a 500 and nothing is written; one that passes gets the route's success status and is stored under its id, every other quiz kept as it was |
| QuizRoutes.AppendPassesSchema | edulingo/routes/quizRoutes.js:201-202 | appending a question that passes validation leaves the list passing exactly when it passed before |
| QuizRoutes.AddQuestion | edulingo/routes/quizRoutes.js:189-209 | the admin gate, 400 for a bad id or question, 404, 500 for a stored quiz that fails validation on save; 201 exactly when all pass; on 201 the question is appended to that quiz and nothing else changes |
| QuizRoutes.ReplaceQuestion | edulingo/routes/quizRoutes.js:212-236 | the checks in source order: 400 for a bad id, negative index or bad question, 404, 400 for an index past the end, 500 when the result fails validation; 200 exactly when all pass, and then exactly that question is replaced |
| QuizRoutes.PatchQuestion | edulingo/routes/quizRoutes.js:239-266 | 400 for a bad id or negative index, 404, 400 past the end, 400 when the merge of the given fields over the stored question is not well formed, 500 when the result fails validation; 200 exactly when all pass, and then exactly that question changes, to the merge |
| QuizRoutes.DeleteQuestion | edulingo/routes/quizRoutes.js:269-289 | 400 for a bad id or index, 404, 500 when the result fails validation; 200 exactly when all pass, and then exactly the question at the index is removed and the others keep their order |
| QuizRoutes.WritesKeepQuizzesValid | edulingo/models/Quiz.js:19-36 | every quiz write leaves every stored quiz satisfying the schema |
| QuizRoutes.AddKeepsValid | edulingo/routes/quizRoutes.js:189-209 | on a store of valid quizzes, adding a well-formed question to a stored quiz always succeeds, and every stored quiz stays valid |
| QuizRoutes.ReplaceKeepsValid | edulingo/routes/quizRoutes.js:212-236 | on a store of valid quizzes, replacing a stored question with a well-formed one always succeeds, and every stored quiz stays valid |
| QuizRoutes.PatchKeepsValid | edulingo/routes/quizRoutes.js:239-266 | on a store of valid quizzes, a patch whose merge is well formed always succeeds, and every stored quiz stays valid |
| QuizRoutes.DeleteQuestionKeepsValid | edulingo/routes/quizRoutes.js:269-289 | on a store of valid quizzes, deleting a stored question always succeeds, and every stored quiz stays valid |
| QuizRoutes.AddThenDeleteRestores | edulingo/routes/quizRoutes.js:189-289 | appending a question and then deleting the last index gives back the original collection |
| QuizRoutes.EmptyPatchIsNoOp | edulingo/routes/quizRoutes.js:251-259 | a patch with no fields succeeds and leaves the collection as it was |
| CourseModel.ParseLevel | edulingo/models/Course.js:28-32 | the level enum accepts exactly "beginner", "intermediate" and "advanced" |
| CourseModel.ParseCourseStatus | edulingo/models/Course.js:46-50 | the course status enum accepts exactly "draft", "published" and "archived" |
| CourseModel.CourseEnumNamesRoundTrip | edulingo/models/Course.js:28-50 | every level and status is stored under a name that the enum validator accepts back as the same value |
| CourseRoutes.ParseSort | edulingo/routes/courseRoutes.js:36-47 | each recognised `sort` string selects its own ordering and anything else selects newest first |
| CourseRoutes.Catalog | edulingo/routes/courseRoutes.js:13-65 | the catalog is the matching courses, a permutation of the query result, ordered by the chosen key |
| CourseRoutes.CatalogIsExactlyPublishedMatches | edulingo/routes/courseRoutes.js:18-26 | a course is listed exactly when it is stored, published and matches the category and level filters |
| CourseRoutes.CatalogOrder | edulingo/routes/courseRoutes.js:36-47 | for each sort choice, earlier entries have a lower price, a higher price, a higher rating, more enrolments or a later creation, as chosen |
| CourseRoutes.CatalogCourse | edulingo/routes/courseRoutes.js:68-101 | 200 with the course exactly when the id is well formed and names a published course; otherwise 400 or 404 |
| CourseRoutes.OwnershipGate | edulingo/routes/courseRoutes.js:209-216 | a caller may manage a course exactly when they are not a teacher or they are its teacher; otherwise 403 |
| CourseRoutes.OwnershipRule | edulingo/routes/courseRoutes.js:209-216 | admins manage every course; a teacher is refused exactly the courses of other teachers |
| CourseRoutes.CourseAccess | edulingo/routes/courseRoutes.js:249-271 | the teacher gate, then 400 for a bad id, 404 for a missing course, 403 for a course the caller does not manage; access is granted exactly when all pass |
| CourseRoutes.ManagedCourses | edulingo/routes/courseRoutes.js:106-132 | behind the teacher gate, the caller's manageable courses, newest first |
| CourseRoutes.ManagedCoursesAreExactlyOwn | edulingo/routes/courseRoutes.js:111-113 | a teacher sees exactly their own courses and an admin sees every course |
| CourseRoutes.ViewCourseAsWritten | edulingo/routes/courseRoutes.js:188-228 | the view as written: an existing course whose teacher account is gone makes a teacher caller's request fail with 500 |
| CourseRoutes.ViewOfOrphanedCourseFails | edulingo/routes/courseRoutes.js:198-216 | a concrete teacher, course and user set for which the written view answers 500 where the ownership check alone answers 403 |
| CourseRoutes.ViewCourse | edulingo/routes/courseRoutes.js:188-228 | the view answers 200 with the course exactly when course access is granted, and otherwise the access check's status |
| CourseRoutes.ViewAgreesWhenOwnerExists | edulingo/routes/courseRoutes.js:198-216 | whenever the course's teacher account exists, the written view and the corrected one agree |
| CourseRoutes.NewCourse | edulingo/routes/courseRoutes.js:156-170 | the document saves exactly when the trimmed title is non-empty, level and status are in their enums and duration and price are not negative; it is valid, owned by the caller and named after the caller's trimmed full name (unset when empty); a given level, status, price and duration are stored as given, and description, category and thumbnail trimmed or empty; absent ones take the schema defaults; the counters start at zero |
| CourseRoutes.CreateCourse | edulingo/routes/courseRoutes.js:135-185 | the teacher gate, then 400 exactly for a missing title, then 500 for a document that fails validation or a taken id; 201 exactly when every check passes, and only then the store changes, by the new course under the new id |
| CourseRoutes.Overlaid | edulingo/routes/courseRoutes.js:274-281 | the update never touches the owner, teacher name, counters, rating or creation time |
| CourseRoutes.CourseOverlay | edulingo/routes/courseRoutes.js:274-283 | the update saves exactly when the title (the given one after trim, else the stored one) is non-empty, a given level and status are in their enums, the duration and price (given or stored) are not negative and the stored counters and rating are within their bounds; the result passes validation, and an overlay of a valid course is valid |
| CourseRoutes.OverlayFrame | edulingo/routes/courseRoutes.js:274-281 | each field is set from the body when given and otherwise kept |
| CourseRoutes.UpdateCourse | edulingo/routes/courseRoutes.js:231-299 | course access first, then 500 with nothing written when the overlaid document fails validation; 200 exactly when both pass, and then only that course changes, to its overlay |
| CourseRoutes.UpdateKeepsOwners | edulingo/routes/courseRoutes.js:274-281 | an update never changes which teacher owns any course |
| CourseRoutes.DeleteCourse | edulingo/routes/courseRoutes.js:302-346 | the course is deleted exactly when course access is granted; exactly that course is removed |
| CourseRoutes.ForeignCoursesUntouched | edulingo/routes/courseRoutes.js:209-216 | a teacher can neither change nor delete another teacher's course |
| CourseRoutes.WritesKeepCoursesValid | edulingo/models/Course.js:4-71 | every course write leaves every stored course satisfying the schema |
| UserRoutes.View | edulingo/routes/userRoutes.js:27 | a listed user shows every stored field but the password |
| UserRoutes.ViewHidesPassword | edulingo/routes/userRoutes.js:27 | the view does not depend on the password at all |
| UserRoutes.ListUsers | edulingo/routes/userRoutes.js:25-36 | 200 exactly for an admin caller, with the listing below; otherwise the gate's status and no data |
| UserRoutes.AllViews | edulingo/routes/userRoutes.js:27-31 | the listing holds one entry per stored user, so `count` is the number of users; it holds the view of every stored user, and every entry is the view of the stored user with that id |
| UserRoutes.GetUser | edulingo/routes/userRoutes.js:85-124 | the admin gate, 400 for a bad id, 404, else 200 with that user's view |
| UserRoutes.SaveUser | edulingo/models/User.js:5-61 | validation runs before the pre-save hook and checks only the `required` paths: a document with an empty name, email or password is refused whether or not its setters ran, a hash failure aborts, else the hooked document is saved |
| UserRoutes.SavedUserIsValid | edulingo/models/User.js:5-61 | a saved user passes the schema and keeps the name and email it was given; with a bcrypt hasher it is valid when its name is trimmed and its email normalised |
| UserRoutes.CreateGender | edulingo/routes/userRoutes.js:62 | `gender \|\| null`: an empty or absent gender is stored as null, any other must be in the enum |
| UserRoutes.NewUser | edulingo/routes/userRoutes.js:57-64 | the new document exists exactly when role, status and a non-empty gender are in their enums; it holds the trimmed name, the normalised email, the given password, and the given role, status and gender or their defaults (learner, active, `null` for a falsy gender) |
| UserRoutes.CreateUser | edulingo/routes/userRoutes.js:39-82 | the admin gate; 400 exactly when a required field is missing or the normalised email is taken; 500 for a schema or hash failure or a taken id; 201 exactly when every check and the save pass, and then only the new user is added and its view returned |
| UserRoutes.CreateDefaults | edulingo/models/User.js:25-38 | a user created without role, gender and status is an active learner with no gender, and the stored password is a bcrypt hash |
| UserRoutes.UpdateGender | edulingo/routes/userRoutes.js:167 | an undefined gender keeps the old one, null clears it, and a string must be in the enum |
| UserRoutes.Assigned | edulingo/routes/userRoutes.js:154-169 | a truthy name is stored trimmed, a truthy email normalised, a truthy password as given, a truthy role or status as its enum value; a gender string becomes its enum value and null clears it; every other field is kept; the result exists exactly when the given role, status and gender are in their enums |
| UserRoutes.UpdateUser | edulingo/routes/userRoutes.js:127-193 | the admin gate, 400 for a bad id, 404, 400 for an email another user has, then the save: 400 for a `required` path left empty, 500 for a hash failure; 200 exactly when all pass, and then only that user changes and its view is returned |
| UserRoutes.EmptyUpdateKeepsUser | edulingo/routes/userRoutes.js:147-171 | an update that gives no field answers 200 and leaves the collection as it was, for every stored user whose required paths hold, trimmed or not |
| UserRoutes.OwnEmailIsNotTaken | edulingo/routes/userRoutes.js:155-163 | resubmitting a user's own email is never reported as taken |
| UserRoutes.ResubmittedHashIsKept | edulingo/routes/userRoutes.js:154-171 | submitting the stored password value again does not hash it a second time |
| UserRoutes.DeleteUserAsWritten | edulingo/routes/userRoutes.js:196-244 | the delete as written, whose self check compares the id text with the caller's id |
| UserRoutes.AdminCanDeleteSelfAsWritten | edulingo/routes/userRoutes.js:222-226 | an admin who spells their own id in upper case deletes their own account as written, where the corrected route answers 400 |
| UserRoutes.DeleteUser | edulingo/routes/userRoutes.js:196-244 | the admin gate, 400, 404, 400 for the caller's own account; on 200 exactly the target is removed |
| UserRoutes.CallerSurvivesDelete | edulingo/routes/userRoutes.js:222-224 | the caller's own account survives every delete request |
| UserRoutes.DeleteAgreesOnCanonicalIds | edulingo/routes/userRoutes.js:222-224 | for ids written in their own spelling the written and the corrected delete agree |
| UserRoutes.NewUserSavesValid | edulingo/routes/userRoutes.js:57-67 | the user create saves holds the trimmed name and the normalised email, so it is valid when the hasher yields bcrypt text |
| UserRoutes.CreateKeepsUsersValid | edulingo/models/User.js:5-43 | creating a user keeps every stored user valid and all emails unique |
| UserRoutes.UpdateKeepsUsersValid | edulingo/models/User.js:5-43 | updating a user keeps every stored user valid and all emails unique |
| UserRoutes.DeleteKeepsUsersValid | edulingo/routes/userRoutes.js:226 | deleting a user keeps every stored user valid and all emails unique |
| FeedbackRoutes.CreateFeedback | edulingo/routes/feedbackRoutes.js:9-45 | 400 exactly when content or rating is missing or the rating is outside 1..5; on 201 the feedback belongs to the caller and is active |
| FeedbackRoutes.MyFeedbacks | edulingo/routes/feedbackRoutes.js:48-65 | the caller's feedback, a permutation of the query result, newest first |
| FeedbackRoutes.MyFeedbacksAreExactlyOwn | edulingo/routes/feedbackRoutes.js:50-52 | the list holds exactly the caller's feedback, hidden entries included |
| FeedbackRoutes.UpdateFeedback | edulingo/routes/feedbackRoutes.js:68-117 | 400 for a bad id; 404 unless the feedback is the caller's and active; 400 for a given rating out of range; on 200 only that feedback's content and rating change |
| FeedbackRoutes.DeleteFeedback | edulingo/routes/feedbackRoutes.js:120-157 | the caller's feedback, in any status, is hidden; anyone else's is 404 |
| FeedbackRoutes.DeleteIsSoft | edulingo/routes/feedbackRoutes.js:145-146 | no feedback disappears, and the deleted one keeps its owner, content, rating and date |
| FeedbackRoutes.HiddenFeedbackIsFrozen | edulingo/routes/feedbackRoutes.js:81-92 | once hidden, a feedback cannot be edited, not even by its owner |
| FeedbackRoutes.DeleteIsIdempotent | edulingo/routes/feedbackRoutes.js:132-146 | deleting twice gives the same result as deleting once |
| FeedbackRoutes.ForeignFeedbackUntouched | edulingo/routes/feedbackRoutes.js:81-92 | nobody can edit or hide another user's feedback |
| FeedbackRoutes.WritesKeepFeedbackValid | edulingo/routes/feedbackRoutes.js:14-25 | every write keeps the content non-empty and the rating within 1..5 |

## Left out

- `GET /users/profile` echoes the authenticated user. It has no logic beyond the authentication middleware.
- The authentication middleware, `authMiddleware.js`, is not part of this model. Its result is the `Caller` parameter.
- `app.js`, the certificate routes, the coupon routes and `models/Certificate.js` are not part of this model.
- The internals of bcrypt and JWT signing are left out. The hasher, comparer and signer are parameters, so their cost factor and token format are only named constants.
- Clocks are left out. `createdAt` is the `now` parameter, and `updatedAt` is not modelled.
- The catalog's `search` parameter and the quiz listing's `courseTitle` filter are left out. Both are regular-expression matches.
- `populate` and `select` projections are left out, except where they change a status. The orphaned-course view is the one case where they do.
- `parseInt` and NaN on `page`/`limit` are left out. The listing takes the parsed integers, and the page/limit defaults of 1 and 20 are the caller's business.
- Body values are modelled as absent or of the type the code expects: strings, and integers for `duration`, `price` and `rating`. The quiz question fields and `gender` are the exceptions, since the code handles their other values. A value of another JSON type, and the cast error it causes on save, is not modelled.
- Numbers are integers. A fractional `rating` such as 4.5, which the range check at edulingo/routes/feedbackRoutes.js:21 accepts, and a fractional `price` such as 9.99, which edulingo/models/Course.js:37 accepts, are not modelled. The bounds the code checks are the same on the integers.
- Stored enum paths are typed: a user's role, status and gender, a quiz's status and a question's `correctAnswer`, a course's level and status. A stored value outside its enum, such as one imported from sample data, cannot be represented, and the `ValidationError` its next save raises (400 on the quiz and user updates, 500 on the question edits and the course update) is not modelled.
- Trimming and lower-casing cover ASCII spaces and letters only, not the Unicode white-space and case tables.
- Concurrency is left out, including the race between the email uniqueness check and the unique index.
- Database and driver failures are left out, as is a `CastError` on a quiz body's `teacher_id`. A collision of `newId` with a stored id stands for the duplicate-key error, answered 500.
- The Feedback schema is not part of this model. Saving feedback always succeeds, and the record holds only the fields the routes use.
- Response messages are not modelled. The model keeps statuses and data only.
- Login's `role || 'learner'` fallback is not modelled. The role is required with a default, so it is always set.
- QuizRoutes.PagesAreDisjoint: assumes two unsorted `find` queries return the documents in the same order, ascending id. MongoDB does not promise a stable natural order, so pages served by two requests can overlap when the server reorders documents between them.
- QuizRoutes.Window: a `limit` of 0 or a negative limit follows the MongoDB driver's documented behaviour, not a reading of the driver.
- UserRoutes.CreateKeepsUsersValid: assumes the hasher yields bcrypt text for the submitted password.
- UserRoutes.UpdateKeepsUsersValid: assumes the hasher yields bcrypt text for the submitted password.

## Findings

| source | as written | input that shows it | evidently intended | confidence | as-written member | corrected member |
|---|---|---|---|---|---|---|
| edulingo/routes/userRoutes.js:222 | the self-delete guard compares the path text with `req.user._id.toString()` as strings | an admin sends their own id in upper-case hexadecimal; `ObjectId.isValid` accepts it, `findById` finds them, the string comparison differs, and the admin deletes their own account | compare the ids, not their spellings, so an admin can never delete their own account | medium, not executed | UserRoutes.AdminCanDeleteSelfAsWritten | UserRoutes.CallerSurvivesDelete |
| edulingo/routes/courseRoutes.js:198-216 | the view populates `teacher_id` and then reads `course.teacher_id._id`, which throws when the teacher account no longer exists | a teacher asks for a course whose owning teacher has been deleted; the request fails with 500 instead of being refused | the ownership check answers 403 to a teacher who does not own the course | medium, not executed | CourseRoutes.ViewOfOrphanedCourseFails | CourseRoutes.ViewAgreesWhenOwnerExists |

=== FILE: accounts.dfy ===
/** The user record of `models/User.js`: its enumerations and defaults, the
    setters and required paths checked on save, and the pre-save hook that
    hashes the password. */
module Accounts {
  import opened Wrappers
  import opened Text
  import opened Ids

  datatype Role = Admin | Teacher | Learner
  datatype AccountStatus = Active | Inactive | Suspended
  datatype Gender = Male | Female | Other

  const DefaultRole: Role := Learner
  const DefaultStatus: AccountStatus := Active

  function RoleName(r: Role): string {
    match r
    case Admin => "admin"
    case Teacher => "teacher"
    case Learner => "learner"
  }

  /** The `enum` validator of `role`: a string is accepted only if it names a role. */
  function ParseRole(s: string): (r: Option<Role>)
    ensures r.Some? <==> s in {"admin", "teacher", "learner"}
    ensures r.Some? ==> RoleName(r.value) == s
  {
    if s == "admin" then Some(Admin)
    else if s == "teacher" then Some(Teacher)
    else if s == "learner" then Some(Learner)
    else None
  }

  function StatusName(s: AccountStatus): string {
    match s
    case Active => "active"
    case Inactive => "inactive"
    case Suspended => "suspended"
  }

  /** The `enum` validator of `status`. */
  function ParseStatus(s: string): (r: Option<AccountStatus>)
    ensures r.Some? <==> s in {"active", "inactive", "suspended"}
    ensures r.Some? ==> StatusName(r.value) == s
  {
    if s == "active" then Some(Active)
    else if s == "inactive" then Some(Inactive)
    else if s == "suspended" then Some(Suspended)
    else None
  }

  function GenderName(g: Gender): string {
    match g
    case Male => "male"
    case Female => "female"
    case Other => "other"
  }

  /** The `enum` validator of `gender`. */
  function ParseGender(s: string): (r: Option<Gender>)
    ensures r.Some? <==> s in {"male", "female", "other"}
    ensures r.Some? ==> GenderName(r.value) == s
  {
    if s == "male" then Some(Male)
    else if s == "female" then Some(Female)
    else if s == "other" then Some(Other)
    else None
  }

  /** Every enumeration value is accepted back by its validator. */
  lemma EnumNamesRoundTrip(r: Role, s: AccountStatus, g: Gender)
    ensures ParseRole(RoleName(r)) == Some(r)
    ensures ParseStatus(StatusName(s)) == Some(s)
    ensures ParseGender(GenderName(g)) == Some(g)
  {
  }

  /** A stored user document. A `null` gender is `None`. */
  datatype User = User(
    fullName: string,
    email: string,
    password: string,
    role: Role,
    gender: Option<Gender>,
    status: AccountStatus)

  /** The `required` paths hold and the setters have been applied:
      `full_name` is trimmed and non-empty, `email` is lower-cased, trimmed and
      non-empty, and `password` is non-empty. */
  predicate Valid(u: User) {
    && RequiredTrimmed(u.fullName)
    && u.email != [] && Normalized(u.email)
    && u.password != []
  }

  /** What the built-in validator checks on save: the three `required` paths
      are non-empty. Setters run only on assignment, so a document stored by
      other means can pass this without being trimmed or lower-cased. */
  predicate PassesUserSchema(u: User) {
    u.fullName != [] && u.email != [] && u.password != []
  }

  type UserStore = map<Id, User>

  /** The unique index on `email`. */
  predicate EmailsUnique(users: UserStore) {
    forall i, j :: i in users && j in users && i != j ==> users[i].email != users[j].email
  }

  /** The collection invariant every route preserves. */
  predicate ValidUsers(users: UserStore) {
    EmailsUnique(users) && forall i :: i in users ==> Valid(users[i])
  }

  /** `req.user` as the authentication middleware leaves it: the caller's id and
      the user document loaded for it. */
  datatype Caller = Caller(id: Id, account: User)

  // ----- password hashing -----

  /** `genSalt(12)`: the bcrypt cost factor. */
  const SaltRounds: nat := 12

  /** `bcrypt.hash(plain, await bcrypt.genSalt(rounds))`; `None` when either call
      throws. The fresh random salt is folded into the choice of function. */
  type Hasher = (string, nat) -> Option<string>

  /** `bcrypt.compare(plain, hash)`. */
  type Comparer = (string, string) -> bool

  /** The prefixes the hook takes as "already hashed". */
  predicate HasBcryptPrefix(s: string) {
    StartsWith(s, "$2a$") || StartsWith(s, "$2b$") || StartsWith(s, "$2y$")
  }

  /** bcrypt produces `$2b$` digests. */
  predicate ProducesBcrypt(hash: Hasher, plain: string) {
    hash(plain, SaltRounds).Some? ==> StartsWith(hash(plain, SaltRounds).value, "$2b$")
  }

  /** The `pre('save')` hook. `passwordModified` is `this.isModified('password')`;
      `None` is the `next(error)` that aborts the save. */
  function PreSave(u: User, passwordModified: bool, hash: Hasher): (r: Option<User>)
    // only the password can change
    ensures r.Some? ==> r.value.(password := u.password) == u
    // an unmodified, empty or already hashed password is kept as it is
    ensures !passwordModified || u.password == [] || HasBcryptPrefix(u.password) ==> r == Some(u)
    // otherwise the stored password is the digest at cost 12, or the save aborts
    ensures passwordModified && u.password != [] && !HasBcryptPrefix(u.password) ==>
      match hash(u.password, SaltRounds)
      case None => r.None?
      case Some(digest) => r == Some(u.(password := digest))
  {
    if passwordModified && u.password != [] && !HasBcryptPrefix(u.password) then
      match hash(u.password, SaltRounds)
      case None => None
      case Some(digest) => Some(u.(password := digest))
    else Some(u)
  }

  /** Saving again never hashes twice: once the hook has run on a modified
      password, running it again, even with the password marked modified again,
      changes nothing. */
  lemma {:induction false} PreSaveIdempotent(u: User, again: bool, hash: Hasher)
    requires ProducesBcrypt(hash, u.password)
    requires PreSave(u, true, hash).Some?
    ensures PreSave(PreSave(u, true, hash).value, again, hash) == PreSave(u, true, hash)
  {
    var v := PreSave(u, true, hash).value;
    if u.password != [] && !HasBcryptPrefix(u.password) {
      assert StartsWith(v.password, "$2b$");
      assert HasBcryptPrefix(v.password);
    }
  }

  /** After the hook has run on a modified password, the stored value is in
      bcrypt format: a plaintext is never persisted. */
  lemma {:induction false} PreSaveStoresDigest(u: User, hash: Hasher)
    requires ProducesBcrypt(hash, u.password)
    requires u.password != []
    requires PreSave(u, true, hash).Some?
    ensures HasBcryptPrefix(PreSave(u, true, hash).value.password)
  {
    if !HasBcryptPrefix(u.password) {
      assert StartsWith(PreSave(u, true, hash).value.password, "$2b$");
    }
  }

  /** `user.isPasswordMatch(plain)`. */
  function IsPasswordMatch(u: User, plain: string, compare: Comparer): bool {
    compare(plain, u.password)
  }
}

=== FILE: auth.dfy ===
/** `routes/authRoutes.js`: the login decision chain and the token it issues,
    and logout. */
module Auth {
  import opened Wrappers
  import opened Text
  import opened Ids
  import opened Http
  import opened Accounts

  /** `expiresIn: '24h'`, in seconds. */
  const TokenLifetimeSeconds: nat := 24 * 60 * 60

  /** The claims signed into a session token. */
  datatype Claims = Claims(id: Id, email: string, role: Role)

  /** `jwt.sign(claims, secret, { expiresIn })`. The signing clock is part of the
      choice of function. */
  type Signer = (Claims, string, nat) -> string

  /** The login request body; a field is `None` when absent. */
  datatype Credentials = Credentials(email: Option<string>, password: Option<string>)

  /** The success payload: the role to show and the bearer token. */
  datatype Session = Session(role: Role, token: string)

  datatype LoginResult = LoginResult(status: Status, session: Option<Session>)

  /** `process.env.JWT_SECRET` is set to a non-empty string. */
  predicate SecretConfigured(secret: Option<string>) {
    Present(secret)
  }

  /** `User.findOne({ email: email.toLowerCase() })`; the query is cast through the
      schema's `lowercase` and `trim` setters. */
  function AccountFor(users: UserStore, email: string): Option<Id> {
    FindFirst(users, (u: User) => u.email == Normalize(email))
  }

  /** `POST /login`. The checks run in a fixed order: missing fields (400),
      unknown e-mail or wrong password (401), inactive account (403), missing
      signing secret (500); only then is a token issued. */
  function Login(users: UserStore, body: Credentials, compare: Comparer, secret: Option<string>, sign: Signer): (r: LoginResult)
    ensures r.session.Some? <==> r.status == Ok
    ensures r.status in {Ok, BadRequest, Unauthorized, Forbidden, ServerError}
    ensures r.status == BadRequest <==> !Present(body.email) || !Present(body.password)
    ensures r.status != BadRequest ==>
      var found := AccountFor(users, body.email.value);
      && (r.status == Unauthorized <==>
            found.None? || !compare(body.password.value, users[found.value].password))
      && (r.status == Forbidden <==>
            found.Some? && compare(body.password.value, users[found.value].password)
            && users[found.value].status != Active)
      && (r.status == ServerError <==>
            found.Some? && compare(body.password.value, users[found.value].password)
            && users[found.value].status == Active && !SecretConfigured(secret))
      && (r.status == Ok ==>
            && found.Some? && SecretConfigured(secret)
            && var u := users[found.value];
               r.session.value == Session(u.role, sign(Claims(found.value, u.email, u.role), secret.value, TokenLifetimeSeconds)))
  {
    if !Present(body.email) || !Present(body.password) then LoginResult(BadRequest, None)
    else
      match AccountFor(users, body.email.value)
      case None => LoginResult(Unauthorized, None)
      case Some(id) =>
        var u := users[id];
        if !IsPasswordMatch(u, body.password.value, compare) then LoginResult(Unauthorized, None)
        else if u.status != Active then LoginResult(Forbidden, None)
        else if !SecretConfigured(secret) then LoginResult(ServerError, None)
        else
          var token := sign(Claims(id, u.email, u.role), secret.value, TokenLifetimeSeconds);
          LoginResult(Ok, Some(Session(u.role, token)))
  }

  /** An unknown e-mail and a wrong password are indistinguishable: both answer
      the same 401 with nothing else. */
  lemma {:induction false} UnknownEmailLikeWrongPassword(users: UserStore, body: Credentials, compare: Comparer, secret: Option<string>, sign: Signer, id: Id)
    requires Present(body.email) && Present(body.password)
    requires id in users && users[id].email == Normalize(body.email.value)
    requires !compare(body.password.value, users[id].password)
    requires EmailsUnique(users)
    ensures Login(users, body, compare, secret, sign) == Login(users - {id}, body, compare, secret, sign)
    ensures Login(users, body, compare, secret, sign) == LoginResult(Unauthorized, None)
  {
    var found := AccountFor(users, body.email.value);
    assert found == Some(id) by { UniqueAccount(users, body.email.value, id); }
    assert AccountFor(users - {id}, body.email.value).None? by {
      forall k | k in users - {id} ensures users[k].email != Normalize(body.email.value) {
        assert users[k].email != users[id].email;
      }
    }
  }

  /** With unique e-mails, the account found for an e-mail is the one that has it. */
  lemma UniqueAccount(users: UserStore, email: string, id: Id)
    requires EmailsUnique(users)
    requires id in users && users[id].email == Normalize(email)
    ensures AccountFor(users, email) == Some(id)
  {
    var found := AccountFor(users, email);
    assert users[found.value].email == users[id].email;
  }

  /** The status check comes after the password check: on an account that is not
      active, a wrong password is 401 and a right one is 403. */
  lemma {:induction false} InactiveAccountNeedsPasswordFirst(users: UserStore, body: Credentials, compare: Comparer, secret: Option<string>, sign: Signer, id: Id)
    requires EmailsUnique(users)
    requires Present(body.email) && Present(body.password)
    requires id in users && users[id].email == Normalize(body.email.value)
    requires users[id].status != Active
    ensures compare(body.password.value, users[id].password) ==> Login(users, body, compare, secret, sign).status == Forbidden
    ensures !compare(body.password.value, users[id].password) ==> Login(users, body, compare, secret, sign).status == Unauthorized
  {
    UniqueAccount(users, body.email.value, id);
  }

  /** The signing secret and the signer are consulted only after the credential
      and status checks pass: any other outcome is the same whatever they are. */
  lemma SecretOnlyMattersLast(users: UserStore, body: Credentials, compare: Comparer, s1: Option<string>, g1: Signer, s2: Option<string>, g2: Signer)
    ensures var r1 := Login(users, body, compare, s1, g1);
            var r2 := Login(users, body, compare, s2, g2);
            r1.status !in {Ok, ServerError} ==> r1 == r2
  {
  }

  /** A successful login for the account holding the e-mail issues a token with
      claims {id, email, role} and a 24-hour lifetime, and reports that role. */
  lemma {:induction false} LoginIssuesToken(users: UserStore, body: Credentials, compare: Comparer, secret: Option<string>, sign: Signer, id: Id)
    requires EmailsUnique(users)
    requires Present(body.email) && Present(body.password)
    requires id in users && users[id].email == Normalize(body.email.value)
    requires compare(body.password.value, users[id].password)
    requires users[id].status == Active && SecretConfigured(secret)
    ensures Login(users, body, compare, secret, sign)
         == LoginResult(Ok, Some(Session(users[id].role,
              sign(Claims(id, users[id].email, users[id].role), secret.value, TokenLifetimeSeconds))))
    ensures TokenLifetimeSeconds == 86400
  {
    UniqueAccount(users, body.email.value, id);
    var u := users[id];
    assert IsPasswordMatch(u, body.password.value, compare);
  }

  /** `POST /logout`: the acknowledgement changes no server state. */
  function Logout(users: UserStore): (r: Outcome<UserStore>)
    ensures r.status == Ok && r.store == users
  {
    Outcome(Ok, users)
  }
}

=== FILE: course_model.dfy ===
/** The course record of `models/Course.js`. */
module CourseModel {
  import opened Wrappers
  import opened Text
  import opened Ids

  datatype Level = Beginner | Intermediate | Advanced

  const DefaultLevel: Level := Beginner

  function LevelName(l: Level): string {
    match l
    case Beginner => "beginner"
    case Intermediate => "intermediate"
    case Advanced => "advanced"
  }

  /** The `enum` validator of `level`. */
  function ParseLevel(s: string): (r: Option<Level>)
    ensures r.Some? <==> s in {"beginner", "intermediate", "advanced"}
    ensures r.Some? ==> LevelName(r.value) == s
  {
    if s == "beginner" then Some(Beginner)
    else if s == "intermediate" then Some(Intermediate)
    else if s == "advanced" then Some(Advanced)
    else None
  }

  datatype CourseStatus = Draft | Published | Archived

  const DefaultCourseStatus: CourseStatus := Draft

  function CourseStatusName(s: CourseStatus): string {
    match s
    case Draft => "draft"
    case Published => "published"
    case Archived => "archived"
  }

  /** The `enum` validator of `status`. */
  function ParseCourseStatus(s: string): (r: Option<CourseStatus>)
    ensures r.Some? <==> s in {"draft", "published", "archived"}
    ensures r.Some? ==> CourseStatusName(r.value) == s
  {
    if s == "draft" then Some(Draft)
    else if s == "published" then Some(Published)
    else if s == "archived" then Some(Archived)
    else None
  }

  /** Every enum value has a distinct name that parses back to it. */
  lemma CourseEnumNamesRoundTrip(l: Level, s: CourseStatus)
    ensures ParseLevel(LevelName(l)) == Some(l)
    ensures ParseCourseStatus(CourseStatusName(s)) == Some(s)
  {
  }

  /** A stored course. `createdAt` is the timestamp the schema's `timestamps`
      option sets on the first save; only its order matters. Optional paths
      without a default are `None` when never set. */
  datatype Course = Course(
    title: string,
    description: Option<string>,
    teacherId: Id,
    teacherName: Option<string>,
    category: Option<string>,
    level: Level,
    duration: Option<int>,
    price: int,
    thumbnail: Option<string>,
    status: CourseStatus,
    enrolledCount: int,
    rating: int,
    totalReviews: int,
    createdAt: nat)

  /** What the schema's validators check when a course is saved: `required` on
      `title`, and the `min` and `max` bounds of the numeric paths. The `enum`
      validators hold by the types `Level` and `CourseStatus`. */
  predicate PassesCourseSchema(c: Course) {
    && c.title != []
    && (c.duration.None? || c.duration.value >= 0)
    && c.price >= 0
    && c.enrolledCount >= 0
    && 0 <= c.rating <= 5
    && c.totalReviews >= 0
  }

  /** What the schema's validators and setters guarantee of a course saved
      through the routes: it passes validation, and every string path with a
      `trim` setter holds a trimmed value. A document written by other means may
      fail the second half. */
  predicate ValidCourse(c: Course) {
    && PassesCourseSchema(c)
    && Trimmed(c.title)
    && OptionalTrimmed(c.description)
    && OptionalTrimmed(c.teacherName)
    && OptionalTrimmed(c.category)
    && OptionalTrimmed(c.thumbnail)
  }

  type CourseStore = map<Id, Course>

  predicate ValidCourses(courses: CourseStore) {
    forall id :: id in courses ==> ValidCourse(courses[id])
  }
}

=== FILE: course_routes.dfy ===
/** The handlers of `routes/courseRoutes.js`: the public catalog, and the course
    CRUD behind the teacher gate, where a teacher may act only on their own
    courses and an admin on any. */
module CourseRoutes {
  import opened Wrappers
  import opened Text
  import opened Ids
  import opened Http
  import opened Sorting
  import opened Accounts
  import opened Gates
  import opened CourseModel

  // ----- catalog -----

  /** The query of `GET /catalog`; `search` is not modelled. */
  datatype CatalogQuery = CatalogQuery(category: Option<string>, level: Option<string>, sort: Option<string>)

  /** The orders `GET /catalog` can ask for. */
  datatype SortKey = PriceAsc | PriceDesc | RatingDesc | PopularDesc | NewestFirst

  /** The `sort` query parameter: four names select a field and a direction,
      anything else (including no parameter) means newest first. */
  function ParseSort(sort: Option<string>): (k: SortKey)
    ensures k == PriceAsc <==> sort == Some("price_asc")
    ensures k == PriceDesc <==> sort == Some("price_desc")
    ensures k == RatingDesc <==> sort == Some("rating")
    ensures k == PopularDesc <==> sort == Some("popular")
  {
    if sort == Some("price_asc") then PriceAsc
    else if sort == Some("price_desc") then PriceDesc
    else if sort == Some("rating") then RatingDesc
    else if sort == Some("popular") then PopularDesc
    else NewestFirst
  }

  /** The ascending sort key of an order; a descending field is negated. */
  function SortValue(k: SortKey, e: (Id, Course)): int {
    match k
    case PriceAsc => e.1.price
    case PriceDesc => -e.1.price
    case RatingDesc => -e.1.rating
    case PopularDesc => -e.1.enrolledCount
    case NewestFirst => -(e.1.createdAt as int)
  }

  function KeyOf(k: SortKey): ((Id, Course)) -> int {
    e => SortValue(k, e)
  }

  /** The catalog filter: published, and equal to the `category` and `level`
      parameters when these are non-empty. The `category` filter is cast through
      the path's `trim` setter. */
  predicate CatalogMatches(q: CatalogQuery, c: Course) {
    && c.status == Published
    && (!Present(q.category) || c.category == Some(Trim(q.category.value)))
    && (!Present(q.level) || LevelName(c.level) == q.level.value)
  }

  function CatalogMatcher(q: CatalogQuery): Course -> bool {
    c => CatalogMatches(q, c)
  }

  /** `GET /catalog`: the matching courses, ordered as `sort` asks. */
  function Catalog(courses: CourseStore, q: CatalogQuery): (r: seq<(Id, Course)>)
    ensures SortedBy(r, KeyOf(ParseSort(q.sort)))
    ensures multiset(r) == multiset(Find(courses, CatalogMatcher(q)))
  {
    SortBy(Find(courses, CatalogMatcher(q)), KeyOf(ParseSort(q.sort)))
  }

  /** The catalog lists exactly the stored courses that match its filter, so
      never an unpublished one. */
  lemma {:induction false} CatalogIsExactlyPublishedMatches(courses: CourseStore, q: CatalogQuery, id: Id, c: Course)
    ensures (id, c) in Catalog(courses, q) <==> id in courses && courses[id] == c && CatalogMatches(q, c)
    ensures (id, c) in Catalog(courses, q) ==> c.status == Published
  {
    var all := Find(courses, CatalogMatcher(q));
    var r := Catalog(courses, q);
    assert (id, c) in r <==> (id, c) in multiset(all);
    if id in courses && courses[id] == c && CatalogMatches(q, c) {
      assert CatalogMatcher(q)(courses[id]);
      var i :| 0 <= i < |all| && all[i].0 == id;
      assert all[i] == (id, c);
    }
    if (id, c) in all {
      var i :| 0 <= i < |all| && all[i] == (id, c);
      assert CatalogMatcher(q)(all[i].1);
    }
  }

  /** The order of each `sort` value, stated on the listed fields. */
  lemma {:induction false} CatalogOrder(courses: CourseStore, q: CatalogQuery, i: int, j: int)
    requires 0 <= i < j < |Catalog(courses, q)|
    ensures
      var a := Catalog(courses, q)[i].1;
      var b := Catalog(courses, q)[j].1;
      && (q.sort == Some("price_asc") ==> a.price <= b.price)
      && (q.sort == Some("price_desc") ==> a.price >= b.price)
      && (q.sort == Some("rating") ==> a.rating >= b.rating)
      && (q.sort == Some("popular") ==> a.enrolledCount >= b.enrolledCount)
      && (q.sort !in {Some("price_asc"), Some("price_desc"), Some("rating"), Some("popular")} ==>
            a.createdAt >= b.createdAt)
  {
    var r := Catalog(courses, q);
    var k := ParseSort(q.sort);
    assert KeyOf(k)(r[i]) <= KeyOf(k)(r[j]);
  }

  /** `GET /catalog/:id`: a course is shown only when it exists and is published;
      an unpublished course is indistinguishable from a missing one. */
  function CatalogCourse(courses: CourseStore, param: IdParam): (r: Reply<Course>)
    ensures r.status == Ok <==> param.WellFormed? && param.id in courses && courses[param.id].status == Published
    ensures r.status == Ok ==> r.data == Some(courses[param.id])
    ensures r.status != Ok ==> r.status == (if param.Malformed? then BadRequest else NotFound)
  {
    if param.Malformed? then Reply(BadRequest, None)
    else if param.id !in courses || courses[param.id].status != Published then Reply(NotFound, None)
    else Reply(Ok, Some(courses[param.id]))
  }

  // ----- ownership -----

  /** The courses a teacher-gate caller manages: a teacher their own, an admin all. */
  predicate Manages(me: Caller, c: Course) {
    me.account.role != Teacher || c.teacherId == me.id
  }

  /** The ownership check of view, update and delete: 403 for a teacher acting
      on another teacher's course. */
  function OwnershipGate(me: Caller, c: Course): (d: Decision)
    ensures d == Next <==> Manages(me, c)
    ensures d.Halt? ==> d.status == Forbidden
  {
    if me.account.role == Teacher && c.teacherId != me.id then Halt(Forbidden) else Next
  }

  /** An admin is never stopped by ownership; a teacher is stopped exactly on a
      course whose `teacher_id` is someone else. */
  lemma OwnershipRule(me: Caller, c: Course)
    ensures me.account.role == Admin ==> OwnershipGate(me, c) == Next
    ensures me.account.role == Teacher ==> (OwnershipGate(me, c) == Halt(Forbidden) <==> c.teacherId != me.id)
  {
  }

  /** The checks view, update and delete share, in their order: the teacher gate,
      the id format (400), existence (404) and ownership (403). */
  function CourseAccess(caller: Option<Caller>, courses: CourseStore, param: IdParam): (d: Decision)
    ensures d == Next <==>
      TeacherGate(caller) == Next && param.WellFormed? && param.id in courses && Manages(caller.value, courses[param.id])
    ensures TeacherGate(caller).Halt? ==> d == TeacherGate(caller)
    ensures TeacherGate(caller) == Next && param.Malformed? ==> d == Halt(BadRequest)
    ensures TeacherGate(caller) == Next && param.WellFormed? && param.id !in courses ==> d == Halt(NotFound)
    ensures TeacherGate(caller) == Next && param.WellFormed? && param.id in courses && !Manages(caller.value, courses[param.id])
      ==> d == Halt(Forbidden)
  {
    match TeacherGate(caller)
    case Halt(s) => Halt(s)
    case Next =>
      if param.Malformed? then Halt(BadRequest)
      else if param.id !in courses then Halt(NotFound)
      else OwnershipGate(caller.value, courses[param.id])
  }

  // ----- teacher listing -----

  function ManagedBy(me: Caller): Course -> bool {
    c => Manages(me, c)
  }

  /** `GET /`: the caller's courses (all of them for an admin), newest first. */
  function ManagedCourses(caller: Option<Caller>, courses: CourseStore): (r: Reply<seq<(Id, Course)>>)
    ensures r.status == Ok <==> TeacherGate(caller) == Next
    ensures r.status != Ok ==> r == Reply(TeacherGate(caller).status, None)
    ensures r.status == Ok ==> r.data.Some? && SortedBy(r.data.value, KeyOf(NewestFirst))
    ensures r.status == Ok ==> multiset(r.data.value) == multiset(Find(courses, ManagedBy(caller.value)))
  {
    match TeacherGate(caller)
    case Halt(s) => Reply(s, None)
    case Next => Reply(Ok, Some(SortBy(Find(courses, ManagedBy(caller.value)), KeyOf(NewestFirst))))
  }

  /** A teacher's listing holds exactly the stored courses whose `teacher_id` is
      theirs; an admin's holds every stored course. */
  lemma {:induction false} ManagedCoursesAreExactlyOwn(caller: Caller, courses: CourseStore, id: Id, c: Course)
    requires caller.account.role in {Teacher, Admin}
    ensures ManagedCourses(Some(caller), courses).status == Ok
    ensures
      var listed := ManagedCourses(Some(caller), courses).data.value;
      && (caller.account.role == Teacher ==>
            ((id, c) in listed <==> id in courses && courses[id] == c && c.teacherId == caller.id))
      && (caller.account.role == Admin ==>
            ((id, c) in listed <==> id in courses && courses[id] == c))
  {
    var all := Find(courses, ManagedBy(caller));
    var listed := ManagedCourses(Some(caller), courses).data.value;
    assert (id, c) in listed <==> (id, c) in multiset(all);
    if id in courses && courses[id] == c && Manages(caller, c) {
      assert ManagedBy(caller)(courses[id]);
      var i :| 0 <= i < |all| && all[i].0 == id;
      assert all[i] == (id, c);
    }
    if (id, c) in all {
      var i :| 0 <= i < |all| && all[i] == (id, c);
      assert ManagedBy(caller)(all[i].1);
    }
  }

  // ----- view -----

  /** `GET /:id` as written: the course's `teacher_id` is populated from the
      users before the ownership check reads `teacher_id._id`. When that account
      no longer exists, populate leaves `null` and a teacher caller gets a
      TypeError, caught as 500, instead of the ownership decision. */
  function ViewCourseAsWritten(caller: Option<Caller>, courses: CourseStore, users: UserStore, param: IdParam): (r: Reply<Course>)
    ensures
      (TeacherGate(caller) == Next && param.WellFormed? && param.id in courses &&
       caller.value.account.role == Teacher && courses[param.id].teacherId !in users)
      ==> r.status == ServerError
    ensures r.status == Ok ==> param.WellFormed? && param.id in courses && r.data == Some(courses[param.id])
  {
    match TeacherGate(caller)
    case Halt(s) => Reply(s, None)
    case Next =>
      if param.Malformed? then Reply(BadRequest, None)
      else if param.id !in courses then Reply(NotFound, None)
      else if caller.value.account.role == Teacher && courses[param.id].teacherId !in users then Reply(ServerError, None)
      else if OwnershipGate(caller.value, courses[param.id]).Halt? then Reply(Forbidden, None)
      else Reply(Ok, Some(courses[param.id]))
  }

  /** A teacher viewing a course of a deleted teacher account: the handler as
      written answers 500 where update and delete of the same course answer 403. */
  lemma ViewOfOrphanedCourseFails()
    ensures
      var me := Caller(1, User("T", "t@x", "h", Teacher, None, Active));
      var course := Course("C", None, 2, None, None, Beginner, None, 0, None, Draft, 0, 0, 0, 0);
      var courses := map[7 := course];
      var users: UserStore := map[1 := me.account];
      && ViewCourseAsWritten(Some(me), courses, users, WellFormed(7, true)).status == ServerError
      && ViewCourse(Some(me), courses, WellFormed(7, true)).status == Forbidden
      && CourseAccess(Some(me), courses, WellFormed(7, true)) == Halt(Forbidden)
  {
  }

  /** `GET /:id` with the ownership check on the stored `teacher_id`, as update
      and delete make it: shown exactly when the shared checks pass. */
  function ViewCourse(caller: Option<Caller>, courses: CourseStore, param: IdParam): (r: Reply<Course>)
    ensures r.status == Ok <==> CourseAccess(caller, courses, param) == Next
    ensures r.status != Ok ==> r == Reply(CourseAccess(caller, courses, param).status, None)
    ensures r.status == Ok ==> r.data == Some(courses[param.id])
  {
    match CourseAccess(caller, courses, param)
    case Halt(s) => Reply(s, None)
    case Next => Reply(Ok, Some(courses[param.id]))
  }

  /** The two agree whenever the course's teacher account still exists. */
  lemma {:induction false} ViewAgreesWhenOwnerExists(caller: Option<Caller>, courses: CourseStore, users: UserStore, param: IdParam)
    requires param.WellFormed? && param.id in courses ==> courses[param.id].teacherId in users
    ensures ViewCourseAsWritten(caller, courses, users, param) == ViewCourse(caller, courses, param)
  {
  }

  // ----- create -----

  /** The body fields create and update read; `None` is `undefined`. */
  datatype CourseBody = CourseBody(
    title: Option<string>,
    description: Option<string>,
    category: Option<string>,
    level: Option<string>,
    duration: Option<int>,
    price: Option<int>,
    thumbnail: Option<string>,
    status: Option<string>)

  /** `value || fallback` on a string. */
  function OrElse(v: Option<string>, fallback: string): string {
    if Present(v) then v.value else fallback
  }

  /** `value || 0` on a number. */
  function OrZero(v: Option<int>): int {
    if v.Some? then v.value else 0
  }

  /** The document `new Course(courseData)` saves on create, or `None` when the
      save fails validation: a title that trims to nothing, an unknown level or
      status, or a negative duration or price. */
  function NewCourse(me: Caller, body: CourseBody, now: nat): (r: Option<Course>)
    requires Present(body.title)
    ensures r.Some? <==>
      && Trim(body.title.value) != []
      && ParseLevel(OrElse(body.level, "beginner")).Some?
      && ParseCourseStatus(OrElse(body.status, "draft")).Some?
      && OrZero(body.duration) >= 0 && OrZero(body.price) >= 0
    ensures r.Some? ==> ValidCourse(r.value)
    ensures r.Some? ==>
      && r.value.teacherId == me.id
      && r.value.title == Trim(body.title.value)
      && (!Present(body.level) ==> r.value.level == DefaultLevel)
      && (!Present(body.status) ==> r.value.status == DefaultCourseStatus)
      && (body.price.None? ==> r.value.price == 0)
      && (body.duration.None? ==> r.value.duration == Some(0))
      && r.value.enrolledCount == 0 && r.value.rating == 0 && r.value.totalReviews == 0
      && r.value.createdAt == now
    // the given values, after the `trim` setters
    ensures r.Some? ==>
      && (Present(body.level) ==> r.value.level == ParseLevel(body.level.value).value)
      && (Present(body.status) ==> r.value.status == ParseCourseStatus(body.status.value).value)
      && (body.price.Some? ==> r.value.price == body.price.value)
      && (body.duration.Some? ==> r.value.duration == body.duration)
      && (Present(body.description) ==> r.value.description == Some(Trim(body.description.value)))
      && (!Present(body.description) ==> r.value.description == Some([]))
      && (Present(body.category) ==> r.value.category == Some(Trim(body.category.value)))
      && (!Present(body.category) ==> r.value.category == Some([]))
      && (Present(body.thumbnail) ==> r.value.thumbnail == Some(Trim(body.thumbnail.value)))
      && (!Present(body.thumbnail) ==> r.value.thumbnail == Some([]))
    // `req.user.full_name || req.user.name`, and a user has no `name` path
    ensures r.Some? ==>
      && (me.account.fullName != [] ==> r.value.teacherName == Some(Trim(me.account.fullName)))
      && (me.account.fullName == [] ==> r.value.teacherName.None?)
  {
    var title := Trim(body.title.value);
    var level := ParseLevel(OrElse(body.level, "beginner"));
    var status := ParseCourseStatus(OrElse(body.status, "draft"));
    if title == [] || level.None? || status.None? || OrZero(body.duration) < 0 || OrZero(body.price) < 0 then None
    else
      Some(Course(
        title := title,
        description := Some(Trim(OrElse(body.description, ""))),
        teacherId := me.id,
        teacherName := if me.account.fullName != [] then Some(Trim(me.account.fullName)) else None,
        category := Some(Trim(OrElse(body.category, ""))),
        level := level.value,
        duration := Some(OrZero(body.duration)),
        price := OrZero(body.price),
        thumbnail := Some(Trim(OrElse(body.thumbnail, ""))),
        status := status.value,
        enrolledCount := 0,
        rating := 0,
        totalReviews := 0,
        createdAt := now))
  }

  /** `POST /create`: a missing title is 400; a document that fails validation on
      save is 500; otherwise the course is stored under the fresh id `newId`,
      owned by the caller whatever the body says. */
  function CreateCourse(caller: Option<Caller>, courses: CourseStore, body: CourseBody, newId: Id, now: nat): (r: Outcome<CourseStore>)
    ensures TeacherGate(caller).Halt? ==> r == Outcome(TeacherGate(caller).status, courses)
    ensures r.status != Created ==> r.store == courses
    ensures TeacherGate(caller) == Next ==> (r.status == BadRequest <==> !Present(body.title))
    ensures (TeacherGate(caller) == Next && Present(body.title) &&
             (NewCourse(caller.value, body, now).None? || newId in courses)) ==> r.status == ServerError
    ensures r.status == Created <==>
      && TeacherGate(caller) == Next && Present(body.title)
      && NewCourse(caller.value, body, now).Some?
      && newId !in courses
    ensures r.status == Created ==> r.store == courses[newId := NewCourse(caller.value, body, now).value]
  {
    match TeacherGate(caller)
    case Halt(s) => Outcome(s, courses)
    case Next =>
      if !Present(body.title) then Outcome(BadRequest, courses)
      else
        match NewCourse(caller.value, body, now)
        case None => Outcome(ServerError, courses)
        case Some(course) =>
          if newId in courses then Outcome(ServerError, courses)
          else Outcome(Created, courses[newId := course])
  }

  // ----- update -----

  /** The eight paths update may assign, after their setters. */
  function Overlaid(c: Course, body: CourseBody, level: Level, status: CourseStatus): (r: Course)
    ensures r.teacherId == c.teacherId && r.teacherName == c.teacherName
    ensures r.enrolledCount == c.enrolledCount && r.rating == c.rating
    ensures r.totalReviews == c.totalReviews && r.createdAt == c.createdAt
  {
    c.(title := if body.title.Some? then Trim(body.title.value) else c.title,
       description := AssignTrimmed(body.description, c.description),
       category := AssignTrimmed(body.category, c.category),
       level := level,
       duration := if body.duration.Some? then body.duration else c.duration,
       price := if body.price.Some? then body.price.value else c.price,
       thumbnail := AssignTrimmed(body.thumbnail, c.thumbnail),
       status := status)
  }

  /** The update overlay followed by the save's full-document validation:
      `None` when the result fails it. A field the body leaves out is validated
      as stored, so a stored course that already breaks a bound fails too. */
  function CourseOverlay(c: Course, body: CourseBody): (r: Option<Course>)
    ensures r.Some? <==>
      && (if body.title.Some? then Trim(body.title.value) != [] else c.title != [])
      && (body.level.None? || ParseLevel(body.level.value).Some?)
      && (body.status.None? || ParseCourseStatus(body.status.value).Some?)
      && (if body.duration.Some? then body.duration.value >= 0 else c.duration.None? || c.duration.value >= 0)
      && (if body.price.Some? then body.price.value >= 0 else c.price >= 0)
      && c.enrolledCount >= 0 && 0 <= c.rating <= 5 && c.totalReviews >= 0
    ensures r.Some? ==> PassesCourseSchema(r.value)
    ensures ValidCourse(c) && r.Some? ==> ValidCourse(r.value)
  {
    var level := if body.level.Some? then ParseLevel(body.level.value) else Some(c.level);
    var status := if body.status.Some? then ParseCourseStatus(body.status.value) else Some(c.status);
    if level.None? || status.None? then None
    else
      var u := Overlaid(c, body, level.value, status.value);
      if PassesCourseSchema(u) then Some(u) else None
  }

  /** The overlay assigns exactly the fields present in the body (after `trim`)
      and leaves every other field, among them `teacher_id`, as it was. */
  lemma {:induction false} OverlayFrame(c: Course, body: CourseBody)
    requires CourseOverlay(c, body).Some?
    ensures
      var u := CourseOverlay(c, body).value;
      && u.teacherId == c.teacherId && u.teacherName == c.teacherName
      && u.enrolledCount == c.enrolledCount && u.rating == c.rating
      && u.totalReviews == c.totalReviews && u.createdAt == c.createdAt
      && u.title == (if body.title.Some? then Trim(body.title.value) else c.title)
      && u.description == (if body.description.Some? then Some(Trim(body.description.value)) else c.description)
      && u.category == (if body.category.Some? then Some(Trim(body.category.value)) else c.category)
      && u.thumbnail == (if body.thumbnail.Some? then Some(Trim(body.thumbnail.value)) else c.thumbnail)
      && u.duration == (if body.duration.Some? then body.duration else c.duration)
      && u.price == (if body.price.Some? then body.price.value else c.price)
      && (body.level.None? ==> u.level == c.level)
      && (body.level.Some? ==> LevelName(u.level) == body.level.value)
      && (body.status.None? ==> u.status == c.status)
      && (body.status.Some? ==> CourseStatusName(u.status) == body.status.value)
  {
  }

  /** `PUT /:id/update`: after the shared checks, the overlay is saved; a
      validation failure is 500 and writes nothing. */
  function UpdateCourse(caller: Option<Caller>, courses: CourseStore, param: IdParam, body: CourseBody): (r: Outcome<CourseStore>)
    ensures CourseAccess(caller, courses, param).Halt? ==> r == Outcome(CourseAccess(caller, courses, param).status, courses)
    ensures CourseAccess(caller, courses, param) == Next && CourseOverlay(courses[param.id], body).None?
      ==> r == Outcome(ServerError, courses)
    ensures r.status != Ok ==> r.store == courses
    ensures r.status == Ok <==>
      CourseAccess(caller, courses, param) == Next && CourseOverlay(courses[param.id], body).Some?
    ensures r.status == Ok ==> r.store == courses[param.id := CourseOverlay(courses[param.id], body).value]
  {
    match CourseAccess(caller, courses, param)
    case Halt(s) => Outcome(s, courses)
    case Next =>
      match CourseOverlay(courses[param.id], body)
      case None => Outcome(ServerError, courses)
      case Some(u) => Outcome(Ok, courses[param.id := u])
  }

  /** An update never moves a course to another teacher, and never adds or
      removes a course. */
  lemma {:induction false} UpdateKeepsOwners(caller: Option<Caller>, courses: CourseStore, param: IdParam, body: CourseBody)
    ensures
      var after := UpdateCourse(caller, courses, param, body).store;
      after.Keys == courses.Keys && forall id :: id in after ==> after[id].teacherId == courses[id].teacherId
  {
    var r := UpdateCourse(caller, courses, param, body);
    if r.status == Ok {
      OverlayFrame(courses[param.id], body);
    }
  }

  // ----- delete -----

  /** `DELETE /:id/delete`: after the shared checks, removes exactly that course. */
  function DeleteCourse(caller: Option<Caller>, courses: CourseStore, param: IdParam): (r: Outcome<CourseStore>)
    ensures CourseAccess(caller, courses, param).Halt? ==> r == Outcome(CourseAccess(caller, courses, param).status, courses)
    ensures r.status == Ok <==> CourseAccess(caller, courses, param) == Next
    ensures r.status == Ok ==> r.store.Keys == courses.Keys - {param.id}
    ensures forall id :: id in r.store ==> id in courses && r.store[id] == courses[id]
  {
    match CourseAccess(caller, courses, param)
    case Halt(s) => Outcome(s, courses)
    case Next => Outcome(Ok, courses - {param.id})
  }

  /** A teacher can never change or remove another teacher's course. */
  lemma {:induction false} ForeignCoursesUntouched(me: Caller, courses: CourseStore, param: IdParam, body: CourseBody, id: Id)
    requires me.account.role == Teacher && id in courses && courses[id].teacherId != me.id
    ensures id in UpdateCourse(Some(me), courses, param, body).store
    ensures UpdateCourse(Some(me), courses, param, body).store[id] == courses[id]
    ensures id in DeleteCourse(Some(me), courses, param).store
  {
  }

  /** Create, update and delete store only valid courses. */
  lemma {:induction false} WritesKeepCoursesValid(
    caller: Option<Caller>, courses: CourseStore, param: IdParam, body: CourseBody, newId: Id, now: nat)
    requires ValidCourses(courses)
    ensures ValidCourses(CreateCourse(caller, courses, body, newId, now).store)
    ensures ValidCourses(UpdateCourse(caller, courses, param, body).store)
    ensures ValidCourses(DeleteCourse(caller, courses, param).store)
  {
  }
}

=== FILE: feedback_routes.dfy ===
/** The handlers of `routes/feedbackRoutes.js`: a signed-in user creates, lists,
    edits and hides their own feedback. The Feedback schema is not part of this
    model; the record below holds the paths the routes read and write, and its
    statuses are the two the routes use. */
module FeedbackRoutes {
  import opened Wrappers
  import opened Text
  import opened Ids
  import opened Http
  import opened Sorting
  import Accounts

  /** The signed-in user, as the authentication middleware provides it. */
  type Caller = Accounts.Caller

  datatype FeedbackStatus = Active | Hidden

  /** A stored feedback; `createdAt` is an ordering key set on the first save. */
  datatype Feedback = Feedback(userId: Id, content: string, rating: int, status: FeedbackStatus, createdAt: nat)

  type FeedbackStore = map<Id, Feedback>

  /** The rating range the routes enforce. */
  predicate InRange(rating: int) {
    1 <= rating <= 5
  }

  /** What the routes guarantee of every feedback they write. */
  predicate ValidFeedback(f: Feedback) {
    f.content != [] && InRange(f.rating)
  }

  predicate ValidFeedbacks(fbs: FeedbackStore) {
    forall id :: id in fbs ==> ValidFeedback(fbs[id])
  }

  /** The body of create and update; `None` is `undefined`. A number is truthy
      when it is not 0. */
  datatype FeedbackBody = FeedbackBody(content: Option<string>, rating: Option<int>)

  predicate RatingGiven(rating: Option<int>) {
    rating.Some? && rating.value != 0
  }

  // ----- create -----

  /** `POST /create`: content and rating must be truthy and the rating in 1..5,
      else 400; the feedback belongs to the caller, whatever the body says, and
      starts active. */
  function CreateFeedback(me: Caller, fbs: FeedbackStore, body: FeedbackBody, newId: Id, now: nat): (r: Outcome<FeedbackStore>)
    ensures r.status != Created ==> r.store == fbs
    ensures r.status == BadRequest <==>
      !Present(body.content) || !RatingGiven(body.rating) || !InRange(body.rating.value)
    ensures r.status == Created <==>
      Present(body.content) && RatingGiven(body.rating) && InRange(body.rating.value) && newId !in fbs
    ensures r.status == Created ==>
      r.store == fbs[newId := Feedback(me.id, body.content.value, body.rating.value, Active, now)]
  {
    if !Present(body.content) || !RatingGiven(body.rating) then Outcome(BadRequest, fbs)
    else if !InRange(body.rating.value) then Outcome(BadRequest, fbs)
    else if newId in fbs then Outcome(ServerError, fbs)
    else Outcome(Created, fbs[newId := Feedback(me.id, body.content.value, body.rating.value, Active, now)])
  }

  // ----- list -----

  function OwnedBy(me: Caller): Feedback -> bool {
    (f: Feedback) => f.userId == me.id
  }

  /** Newest first. */
  function Newest(e: (Id, Feedback)): int {
    -(e.1.createdAt as int)
  }

  /** `GET /my-feedbacks`: the caller's feedback, hidden ones included, newest first. */
  function MyFeedbacks(me: Caller, fbs: FeedbackStore): (r: seq<(Id, Feedback)>)
    ensures SortedBy(r, Newest)
    ensures multiset(r) == multiset(Find(fbs, OwnedBy(me)))
  {
    SortBy(Find(fbs, OwnedBy(me)), Newest)
  }

  /** The listing holds exactly the stored feedback whose `userId` is the caller,
      whatever its status. */
  lemma {:induction false} MyFeedbacksAreExactlyOwn(me: Caller, fbs: FeedbackStore, id: Id, f: Feedback)
    ensures (id, f) in MyFeedbacks(me, fbs) <==> id in fbs && fbs[id] == f && f.userId == me.id
  {
    var all := Find(fbs, OwnedBy(me));
    assert (id, f) in MyFeedbacks(me, fbs) <==> (id, f) in multiset(all);
    if id in fbs && fbs[id] == f && f.userId == me.id {
      assert OwnedBy(me)(fbs[id]);
      var i :| 0 <= i < |all| && all[i].0 == id;
      assert all[i] == (id, f);
    }
    if (id, f) in all {
      var i :| 0 <= i < |all| && all[i] == (id, f);
      assert OwnedBy(me)(all[i].1);
    }
  }

  // ----- update -----

  /** The feedback `findOne({ _id, userId, status: 'active' })` finds. */
  predicate Editable(me: Caller, fbs: FeedbackStore, id: Id) {
    id in fbs && fbs[id].userId == me.id && fbs[id].status == Active
  }

  /** `PUT /:id`: only the caller's active feedback can be edited (404 otherwise);
      a truthy content replaces the old one; a truthy rating outside 1..5 is 400
      and nothing is saved. */
  function UpdateFeedback(me: Caller, fbs: FeedbackStore, param: IdParam, body: FeedbackBody): (r: Outcome<FeedbackStore>)
    ensures r.status != Ok ==> r.store == fbs
    ensures param.Malformed? ==> r.status == BadRequest
    ensures param.WellFormed? && !Editable(me, fbs, param.id) ==> r.status == NotFound
    ensures r.status == Ok <==>
      param.WellFormed? && Editable(me, fbs, param.id) && (RatingGiven(body.rating) ==> InRange(body.rating.value))
    ensures r.status == Ok ==>
      var f := fbs[param.id];
      r.store == fbs[param.id := f.(content := if Present(body.content) then body.content.value else f.content,
                                     rating := if RatingGiven(body.rating) then body.rating.value else f.rating)]
  {
    if param.Malformed? then Outcome(BadRequest, fbs)
    else if !Editable(me, fbs, param.id) then Outcome(NotFound, fbs)
    else if RatingGiven(body.rating) && !InRange(body.rating.value) then Outcome(BadRequest, fbs)
    else
      var f := fbs[param.id];
      var content := if Present(body.content) then body.content.value else f.content;
      var rating := if RatingGiven(body.rating) then body.rating.value else f.rating;
      Outcome(Ok, fbs[param.id := f.(content := content, rating := rating)])
  }

  // ----- delete -----

  /** `DELETE /:id`: the caller's feedback, in any status, is hidden; everyone
      else's is 404. The record stays. */
  function DeleteFeedback(me: Caller, fbs: FeedbackStore, param: IdParam): (r: Outcome<FeedbackStore>)
    ensures r.status != Ok ==> r.store == fbs
    ensures param.Malformed? ==> r.status == BadRequest
    ensures r.status == Ok <==> param.WellFormed? && param.id in fbs && fbs[param.id].userId == me.id
    ensures param.WellFormed? && r.status != Ok ==> r.status == NotFound
    ensures r.status == Ok ==> r.store == fbs[param.id := fbs[param.id].(status := Hidden)]
  {
    if param.Malformed? then Outcome(BadRequest, fbs)
    else if param.id !in fbs || fbs[param.id].userId != me.id then Outcome(NotFound, fbs)
    else Outcome(Ok, fbs[param.id := fbs[param.id].(status := Hidden)])
  }

  /** Delete is soft: no record disappears, and the deleted one keeps its owner,
      content, rating and date. */
  lemma {:induction false} DeleteIsSoft(me: Caller, fbs: FeedbackStore, param: IdParam)
    ensures
      var after := DeleteFeedback(me, fbs, param).store;
      && after.Keys == fbs.Keys
      && forall id :: id in after ==>
           after[id].userId == fbs[id].userId && after[id].content == fbs[id].content &&
           after[id].rating == fbs[id].rating && after[id].createdAt == fbs[id].createdAt
  {
  }

  /** Hidden feedback cannot be edited any more, not even by its owner. */
  lemma {:induction false} HiddenFeedbackIsFrozen(me: Caller, fbs: FeedbackStore, param: IdParam, body: FeedbackBody)
    requires DeleteFeedback(me, fbs, param).status == Ok
    ensures UpdateFeedback(me, DeleteFeedback(me, fbs, param).store, param, body).status == NotFound
  {
    var after := DeleteFeedback(me, fbs, param).store;
    assert after[param.id].status == Hidden;
  }

  /** Deleting twice is the same as deleting once. */
  lemma {:induction false} DeleteIsIdempotent(me: Caller, fbs: FeedbackStore, param: IdParam)
    requires DeleteFeedback(me, fbs, param).status == Ok
    ensures DeleteFeedback(me, DeleteFeedback(me, fbs, param).store, param) == DeleteFeedback(me, fbs, param)
  {
    var after := DeleteFeedback(me, fbs, param).store;
    assert after[param.id := after[param.id].(status := Hidden)] == after;
  }

  /** Nobody can edit or hide another user's feedback. */
  lemma {:induction false} ForeignFeedbackUntouched(me: Caller, fbs: FeedbackStore, param: IdParam, body: FeedbackBody)
    requires param.WellFormed? && param.id in fbs && fbs[param.id].userId != me.id
    ensures UpdateFeedback(me, fbs, param, body) == Outcome(NotFound, fbs)
    ensures DeleteFeedback(me, fbs, param) == Outcome(NotFound, fbs)
  {
  }

  /** Every write keeps content non-empty and ratings within 1..5. */
  lemma {:induction false} WritesKeepFeedbackValid(me: Caller, fbs: FeedbackStore, param: IdParam, body: FeedbackBody, newId: Id, now: nat)
    requires ValidFeedbacks(fbs)
    ensures ValidFeedbacks(CreateFeedback(me, fbs, body, newId, now).store)
    ensures ValidFeedbacks(UpdateFeedback(me, fbs, param, body).store)
    ensures ValidFeedbacks(DeleteFeedback(me, fbs, param).store)
  {
  }
}

=== FILE: gates.dfy ===
/** The role gates of `middleware/adminMiddleware.js` and
    `middleware/teacherMiddleware.js`. Both run after the authentication
    middleware, whose result `req.user` is the optional caller. */
module Gates {
  import opened Wrappers
  import opened Http
  import opened Accounts

  /** `adminMiddleware`: no caller is 401, a non-admin caller is 403, an admin
      reaches `next()`. */
  function AdminGate(caller: Option<Caller>): (d: Decision)
    ensures caller.None? ==> d == Halt(Unauthorized)
    ensures caller.Some? && caller.value.account.role != Admin ==> d == Halt(Forbidden)
    ensures d == Next <==> caller.Some? && caller.value.account.role == Admin
  {
    if caller.None? then Halt(Unauthorized)
    else if caller.value.account.role != Admin then Halt(Forbidden)
    else Next
  }

  /** `teacherMiddleware`: no caller is 401, a caller who is neither teacher nor
      admin is 403, a teacher or an admin reaches `next()`. */
  function TeacherGate(caller: Option<Caller>): (d: Decision)
    ensures caller.None? ==> d == Halt(Unauthorized)
    ensures caller.Some? && caller.value.account.role == Learner ==> d == Halt(Forbidden)
    ensures d == Next <==> caller.Some? && caller.value.account.role in {Teacher, Admin}
  {
    if caller.None? then Halt(Unauthorized)
    else if caller.value.account.role != Teacher && caller.value.account.role != Admin then Halt(Forbidden)
    else Next
  }

  /** Each gate answers exactly one of 401, 403 or `next()`. */
  lemma GatesAreTotal(caller: Option<Caller>)
    ensures AdminGate(caller) in {Next, Halt(Unauthorized), Halt(Forbidden)}
    ensures TeacherGate(caller) in {Next, Halt(Unauthorized), Halt(Forbidden)}
  {
  }

  /** The admin gate is stronger: whoever passes it passes the teacher gate, and
      both reject the same anonymous and learner callers the same way. */
  lemma AdminGateImpliesTeacherGate(caller: Option<Caller>)
    ensures AdminGate(caller) == Next ==> TeacherGate(caller) == Next
    ensures TeacherGate(caller).Halt? ==> AdminGate(caller) == TeacherGate(caller)
  {
  }

  /** ... and strictly so: a teacher passes the teacher gate but is refused by the
      admin gate with 403. */
  lemma AdminGateStrictlyStronger(caller: Caller)
    requires caller.account.role == Teacher
    ensures TeacherGate(Some(caller)) == Next
    ensures AdminGate(Some(caller)) == Halt(Forbidden)
  {
  }
}

=== FILE: http.dfy ===
/** The HTTP status codes the route handlers answer with, and the shapes of a
    handler's answer. */
module Http {
  import opened Wrappers

  datatype Status = Ok | Created | BadRequest | Unauthorized | Forbidden | NotFound | ServerError {

    /** The numeric code sent on the wire. */
    function Code(): int {
      match this
      case Ok => 200
      case Created => 201
      case BadRequest => 400
      case Unauthorized => 401
      case Forbidden => 403
      case NotFound => 404
      case ServerError => 500
    }

    predicate IsSuccess() {
      Ok? || Created?
    }
  }

  /** What a middleware decides: call `next()`, or answer with a status and stop. */
  datatype Decision = Next | Halt(status: Status)

  /** The answer of a handler that may write to a collection `S`. */
  datatype Outcome<S> = Outcome(status: Status, store: S)

  /** The answer of a handler that only reads: a status and, on success, a payload. */
  datatype Reply<D> = Reply(status: Status, data: Option<D>)
}

=== FILE: ids.dfy ===
/** Document identifiers and the collection queries the routes issue.

    A MongoDB ObjectId begins with its creation time, so ids are modelled as
    naturals ordered by creation; a query without a sort returns documents in
    that (natural) order, and `findOne` returns the first match. */
module Ids {
  import opened Wrappers

  type Id = nat

  /** A `:id` path parameter as the route sees it. `Malformed` is a string that
      `mongoose.Types.ObjectId.isValid` rejects; `WellFormed(id, canonical)` is one
      it accepts and that casts to `id`, where `canonical` says whether the string
      is exactly `id.toString()` (24 lower-case hex digits) rather than another
      accepted spelling (upper-case hex, or the 12-byte form). */
  datatype IdParam = Malformed | WellFormed(id: Id, canonical: bool)

  /** From any member `y`, descending to a smaller member while there is one
      reaches a least member. */
  lemma {:induction false} LeastExists(s: set<Id>, y: Id)
    requires y in s
    ensures exists m :: m in s && forall x :: x in s ==> m <= x
    decreases y
  {
    if !forall x :: x in s ==> y <= x {
      var x :| x in s && x < y;
      LeastExists(s, x);
    }
  }

  /** The smallest id of a non-empty set: the first of them in natural order. */
  function Least(s: set<Id>): (m: Id)
    requires s != {}
    ensures m in s
    ensures forall x :: x in s ==> m <= x
  {
    var y :| y in s;
    LeastExists(s, y);
    var m :| m in s && forall x :: x in s ==> m <= x;
    m
  }

  predicate StrictlyAscending(xs: seq<Id>) {
    forall i, j :: 0 <= i < j < |xs| ==> xs[i] < xs[j]
  }

  /** The ids of `s` in natural order. */
  function Ascending(s: set<Id>): (r: seq<Id>)
    ensures StrictlyAscending(r)
    ensures forall i :: 0 <= i < |r| ==> r[i] in s
    ensures forall x :: x in s ==> x in r
    decreases s
  {
    if s == {} then []
    else
      var m := Least(s);
      var rest := Ascending(s - {m});
      [m] + rest
  }

  /** `Ascending` lists each id of the set once. */
  lemma {:induction false} AscendingLength(s: set<Id>)
    ensures |Ascending(s)| == |s|
    decreases s
  {
    if s != {} {
      var m := Least(s);
      AscendingLength(s - {m});
      assert s == (s - {m}) + {m};
    }
  }

  /** Each id of `ids` paired with its stored document. */
  function Entries<R>(store: map<Id, R>, ids: seq<Id>): (r: seq<(Id, R)>)
    requires forall i :: 0 <= i < |ids| ==> ids[i] in store
    ensures |r| == |ids|
    ensures forall k :: k in ids ==> exists i :: 0 <= i < |r| && r[i].0 == k
    ensures forall i :: 0 <= i < |r| ==> r[i].0 == ids[i] && r[i].1 == store[ids[i]]
  {
    var r := seq(|ids|, i requires 0 <= i < |ids| => (ids[i], store[ids[i]]));
    forall k | k in ids ensures exists i :: 0 <= i < |r| && r[i].0 == k {
      var i :| 0 <= i < |ids| && ids[i] == k;
      assert r[i].0 == k;
    }
    r
  }

  /** The ids of the documents satisfying `filter`. */
  function Hits<R>(store: map<Id, R>, filter: R -> bool): (r: set<Id>)
    ensures forall k :: k in r <==> k in store && filter(store[k])
  {
    set k | k in store && filter(store[k])
  }

  /** `Model.find(filter)`: the (id, document) pairs of `store` whose document
      satisfies `filter`, in natural order. */
  function Find<R>(store: map<Id, R>, filter: R -> bool): (r: seq<(Id, R)>)
    ensures forall i :: 0 <= i < |r| ==> r[i].0 in store && store[r[i].0] == r[i].1 && filter(r[i].1)
    ensures forall k :: k in store && filter(store[k]) ==> exists i :: 0 <= i < |r| && r[i].0 == k
    ensures forall i, j :: 0 <= i < j < |r| ==> r[i].0 < r[j].0
  {
    var hits := Hits(store, filter);
    var ids := Ascending(hits);
    var r := Entries(store, ids);
    assert forall k :: k in store && filter(store[k]) ==> k in ids;
    r
  }

  /** `find` returns one pair per matching document. */
  lemma FindCount<R>(store: map<Id, R>, filter: R -> bool)
    ensures |Find(store, filter)| == |Hits(store, filter)|
  {
    AscendingLength(Hits(store, filter));
  }

  /** `Model.findOne(filter)`: the id of the first document satisfying `filter`. */
  function FindFirst<R>(store: map<Id, R>, filter: R -> bool): (r: Option<Id>)
    ensures r.None? <==> forall k :: k in store ==> !filter(store[k])
    ensures r.Some? ==> r.value in store && filter(store[r.value])
    ensures r.Some? ==> forall k :: k in store && filter(store[k]) ==> r.value <= k
  {
    var hits := Hits(store, filter);
    if hits == {} then None else Some(Least(hits))
  }
}

=== FILE: quiz_model.dfy ===
/** The quiz and question records of `models/Quiz.js`. */
module QuizModel {
  import opened Wrappers
  import opened Text
  import opened Ids

  /** The four option keys, which are also the values `correctAnswer` may take. */
  datatype Answer = A | B | C | D

  function AnswerName(k: Answer): string {
    match k
    case A => "A"
    case B => "B"
    case C => "C"
    case D => "D"
  }

  /** `['A', 'B', 'C', 'D'].includes(s)`, and the `enum` validator of `correctAnswer`. */
  function ParseAnswer(s: string): (r: Option<Answer>)
    ensures r.Some? <==> s in {"A", "B", "C", "D"}
    ensures r.Some? ==> AnswerName(r.value) == s
  {
    if s == "A" then Some(A)
    else if s == "B" then Some(B)
    else if s == "C" then Some(C)
    else if s == "D" then Some(D)
    else None
  }

  /** A stored question sub-document. */
  datatype Question = Question(text: string, a: string, b: string, c: string, d: string, answer: Answer)

  function OptionOf(q: Question, k: Answer): string {
    match k
    case A => q.a
    case B => q.b
    case C => q.c
    case D => q.d
  }

  /** `questionText` and the four options are required and trimmed. */
  predicate ValidQuestion(q: Question) {
    && RequiredTrimmed(q.text)
    && RequiredTrimmed(q.a) && RequiredTrimmed(q.b) && RequiredTrimmed(q.c) && RequiredTrimmed(q.d)
  }

  datatype QuizStatus = Draft | Published | Archived

  const DefaultQuizStatus: QuizStatus := Published

  function QuizStatusName(s: QuizStatus): string {
    match s
    case Draft => "draft"
    case Published => "published"
    case Archived => "archived"
  }

  /** The `enum` validator of the quiz `status`. */
  function ParseQuizStatus(s: string): (r: Option<QuizStatus>)
    ensures r.Some? <==> s in {"draft", "published", "archived"}
    ensures r.Some? ==> QuizStatusName(r.value) == s
  {
    if s == "draft" then Some(Draft)
    else if s == "published" then Some(Published)
    else if s == "archived" then Some(Archived)
    else None
  }

  /** A stored quiz. Optional paths that were never set are `None`. */
  datatype Quiz = Quiz(
    courseTitle: Option<string>,
    teacherId: Option<Id>,
    teacherName: Option<string>,
    title: string,
    description: Option<string>,
    questions: seq<Question>,
    createdBy: Option<Id>,
    status: QuizStatus)

  /** `title` is required and trimmed and every question is valid: what a quiz
      saved through the routes holds, since the setters trim every assigned
      value. */
  predicate ValidQuiz(q: Quiz) {
    RequiredTrimmed(q.title) && forall i :: 0 <= i < |q.questions| ==> ValidQuestion(q.questions[i])
  }

  /** What the `required` validators of a question check on save: the text and
      the four options are non-empty. The `enum` of `correctAnswer` holds by the
      type `Answer`. */
  predicate QuestionPassesSchema(q: Question) {
    q.text != [] && q.a != [] && q.b != [] && q.c != [] && q.d != []
  }

  predicate QuestionsPassSchema(qs: seq<Question>) {
    forall i :: 0 <= i < |qs| ==> QuestionPassesSchema(qs[i])
  }

  /** What `quiz.save()` validates: a non-empty title and questions that pass.
      Unlike `ValidQuiz` it says nothing about white space, which the setters
      handle on assignment only, so a document written by other means can pass
      it untrimmed. */
  predicate PassesSchema(q: Quiz) {
    q.title != [] && QuestionsPassSchema(q.questions)
  }

  type QuizStore = map<Id, Quiz>

  predicate ValidQuizzes(quizzes: QuizStore) {
    forall id :: id in quizzes ==> ValidQuiz(quizzes[id])
  }
}

=== FILE: quiz_routes.dfy ===
/** `routes/quizRoutes.js`: the question validator, quiz create/update/delete,
    the question-list edits and the paginated listing. Every route but the two
    public reads sits behind the authentication and admin middlewares. */
module QuizRoutes {
  import opened Wrappers
  import opened Text
  import opened Ids
  import opened Http
  import opened Accounts
  import opened Gates
  import opened QuizModel

  // ----- request values -----

  /** A JSON value where a string is expected: absent, a string, or anything
      else (`null`, a number, a boolean, an object). */
  datatype Field = Absent | Str(s: string) | NonString

  /** The `options` value of a question: absent, present but not an object (this
      includes `null`), or an object with its four keys. */
  datatype OptionsField =
    | OptionsAbsent
    | OptionsNotObject
    | OptionsObject(a: Field, b: Field, c: Field, d: Field)

  /** A question as it arrives in a request: not an object at all, or an object. */
  datatype RawQuestion =
    | NotAnObject
    | QuestionObject(questionText: Field, options: OptionsField, correctAnswer: Field)

  /** The message `validateQuestionObject` returns. */
  datatype QuestionError =
    | NotAnObjectError
    | MissingQuestionText
    | MissingOptions
    | MissingOption(key: Answer)
    | BadCorrectAnswer

  /** `!v || typeof v !== 'string' || v.trim() === ''` is false. */
  predicate NonBlank(f: Field) {
    f.Str? && Trim(f.s) != []
  }

  function OptionField(o: OptionsField, k: Answer): Field
    requires o.OptionsObject?
  {
    match k
    case A => o.a
    case B => o.b
    case C => o.c
    case D => o.d
  }

  /** `q.correctAnswer` is truthy and one of "A", "B", "C", "D". */
  predicate CorrectAnswerOk(f: Field) {
    f.Str? && ParseAnswer(f.s).Some?
  }

  /** The reference definition of a valid question: a non-blank `questionText`,
      an options object whose four options are non-blank strings, and a
      `correctAnswer` among the four keys. */
  predicate WellFormed(q: RawQuestion) {
    && q.QuestionObject?
    && NonBlank(q.questionText)
    && q.options.OptionsObject?
    && (forall k: Answer :: NonBlank(OptionField(q.options, k)))
    && CorrectAnswerOk(q.correctAnswer)
  }

  /** The order in which the keys are checked. */
  const OptionKeys: seq<Answer> := [A, B, C, D]

  function KeyIndex(k: Answer): nat {
    match k
    case A => 0
    case B => 1
    case C => 2
    case D => 3
  }

  /** The `for (const k of keys)` loop: the position of the first blank option. */
  function FirstBlankOption(o: OptionsField, keys: seq<Answer>): (r: Option<nat>)
    requires o.OptionsObject?
    ensures r.None? <==> forall i :: 0 <= i < |keys| ==> NonBlank(OptionField(o, keys[i]))
    ensures r.Some? ==> r.value < |keys| && !NonBlank(OptionField(o, keys[r.value]))
    ensures r.Some? ==> forall i :: 0 <= i < r.value ==> NonBlank(OptionField(o, keys[i]))
  {
    if |keys| == 0 then None
    else if !NonBlank(OptionField(o, keys[0])) then Some(0)
    else
      match FirstBlankOption(o, keys[1..])
      case None => None
      case Some(i) => Some(i + 1)
  }

  /** `k` is the first key, in `OptionKeys` order, whose option is blank. */
  predicate FirstBlankKey(o: OptionsField, k: Answer)
    requires o.OptionsObject?
  {
    !NonBlank(OptionField(o, k)) && forall j: Answer :: KeyIndex(j) < KeyIndex(k) ==> NonBlank(OptionField(o, j))
  }

  /** The loop over `OptionKeys` finds the first blank option in key order. */
  lemma FirstBlankIsFirstKey(o: OptionsField)
    requires o.OptionsObject?
    ensures FirstBlankOption(o, OptionKeys).None? <==> forall k: Answer :: NonBlank(OptionField(o, k))
    ensures forall i :: 0 <= i < |OptionKeys| ==> KeyIndex(OptionKeys[i]) == i
    ensures forall k: Answer :: FirstBlankOption(o, OptionKeys) == Some(KeyIndex(k)) <==> FirstBlankKey(o, k)
  {
    var blank := FirstBlankOption(o, OptionKeys);
    assert forall k: Answer :: OptionKeys[KeyIndex(k)] == k;
    if blank.None? {
      forall k: Answer ensures NonBlank(OptionField(o, k)) {
        assert OptionKeys[KeyIndex(k)] == k;
      }
    }
    forall k: Answer | FirstBlankKey(o, k)
      ensures blank == Some(KeyIndex(k))
    {
      assert OptionKeys[KeyIndex(k)] == k;
      assert blank.Some?;
    }
  }

  /** `validateQuestionObject`: no error exactly for a well-formed question, and
      otherwise the error of the first failing check, in the order
      object, questionText, options object, A, B, C, D, correctAnswer. */
  function ValidateQuestion(q: RawQuestion): (r: Option<QuestionError>)
    ensures r.None? <==> WellFormed(q)
    ensures r == Some(NotAnObjectError) <==> q.NotAnObject?
    ensures r == Some(MissingQuestionText) <==> q.QuestionObject? && !NonBlank(q.questionText)
    ensures r == Some(MissingOptions) <==>
      q.QuestionObject? && NonBlank(q.questionText) && !q.options.OptionsObject?
    ensures forall k: Answer :: r == Some(MissingOption(k)) <==>
      && q.QuestionObject? && NonBlank(q.questionText) && q.options.OptionsObject?
      && FirstBlankKey(q.options, k)
    ensures r == Some(BadCorrectAnswer) <==>
      && q.QuestionObject? && NonBlank(q.questionText) && q.options.OptionsObject?
      && (forall k: Answer :: NonBlank(OptionField(q.options, k)))
      && !CorrectAnswerOk(q.correctAnswer)
  {
    if q.NotAnObject? then Some(NotAnObjectError)
    else if !NonBlank(q.questionText) then Some(MissingQuestionText)
    else if !q.options.OptionsObject? then Some(MissingOptions)
    else
      var blank := FirstBlankOption(q.options, OptionKeys);
      FirstBlankIsFirstKey(q.options);
      if blank.Some? then Some(MissingOption(OptionKeys[blank.value]))
      else if !CorrectAnswerOk(q.correctAnswer) then Some(BadCorrectAnswer)
      else None
  }

  /** The sub-document Mongoose stores for a valid question: the `trim` setters
      applied to the five strings. */
  function ToQuestion(q: RawQuestion): (r: Question)
    requires WellFormed(q)
    ensures ValidQuestion(r)
    ensures r.text == Trim(q.questionText.s)
    ensures forall k: Answer :: OptionOf(r, k) == Trim(OptionField(q.options, k).s)
    ensures AnswerName(r.answer) == q.correctAnswer.s
  {
    assert NonBlank(OptionField(q.options, A)) && NonBlank(OptionField(q.options, B));
    assert NonBlank(OptionField(q.options, C)) && NonBlank(OptionField(q.options, D));
    Question(
      Trim(q.questionText.s),
      Trim(q.options.a.s), Trim(q.options.b.s), Trim(q.options.c.s), Trim(q.options.d.s),
      ParseAnswer(q.correctAnswer.s).value)
  }

  /** `quiz.questions[idx].toObject()`: a stored question as a plain object. */
  function AsRaw(q: Question): RawQuestion {
    QuestionObject(Str(q.text), OptionsObject(Str(q.a), Str(q.b), Str(q.c), Str(q.d)), Str(AnswerName(q.answer)))
  }

  /** A stored question validates again and is stored back unchanged. */
  lemma {:induction false} StoredQuestionRoundTrip(q: Question)
    requires ValidQuestion(q)
    ensures WellFormed(AsRaw(q))
    ensures ToQuestion(AsRaw(q)) == q
  {
    TrimmedIsFixed(q.text);
    TrimmedIsFixed(q.a);
    TrimmedIsFixed(q.b);
    TrimmedIsFixed(q.c);
    TrimmedIsFixed(q.d);
    var raw := AsRaw(q);
    assert forall k: Answer :: NonBlank(OptionField(raw.options, k));
    assert ParseAnswer(AnswerName(q.answer)) == Some(q.answer) by {
      match q.answer
      case A =>
      case B =>
      case C =>
      case D =>
    }
  }

  // ----- question lists -----

  /** The `questions` body field: absent, not an array, or an array. */
  datatype QuestionsField = QuestionsAbsent | QuestionsNotArray | QuestionsArray(items: seq<RawQuestion>)

  datatype ListError = NotAnArray | InvalidAt(index: nat, error: QuestionError)

  predicate AllWellFormed(items: seq<RawQuestion>) {
    forall i :: 0 <= i < |items| ==> WellFormed(items[i])
  }

  /** The `for (let i = 0; ...)` loop from position `from`: the first invalid item. */
  function FirstInvalid(items: seq<RawQuestion>, from: nat): (r: Option<nat>)
    requires from <= |items|
    ensures r.None? <==> forall i :: from <= i < |items| ==> WellFormed(items[i])
    ensures r.Some? ==> from <= r.value < |items| && !WellFormed(items[r.value])
    ensures r.Some? ==> forall i :: from <= i < r.value ==> WellFormed(items[i])
    decreases |items| - from
  {
    if from == |items| then None
    else if ValidateQuestion(items[from]).Some? then Some(from)
    else FirstInvalid(items, from + 1)
  }

  /** The validation of a `questions` body field: absent is fine, a non-array is
      refused, and an array is refused at its first invalid element, with that
      element's error. */
  function CheckQuestions(f: QuestionsField): (r: Option<ListError>)
    ensures r.None? <==> f.QuestionsAbsent? || (f.QuestionsArray? && AllWellFormed(f.items))
    ensures f.QuestionsNotArray? ==> r == Some(NotAnArray)
    ensures r.Some? && r.value.InvalidAt? ==>
      && f.QuestionsArray? && r.value.index < |f.items|
      && ValidateQuestion(f.items[r.value.index]) == Some(r.value.error)
      && forall j :: 0 <= j < r.value.index ==> WellFormed(f.items[j])
  {
    match f
    case QuestionsAbsent => None
    case QuestionsNotArray => Some(NotAnArray)
    case QuestionsArray(items) =>
      match FirstInvalid(items, 0)
      case None => None
      case Some(i) => Some(InvalidAt(i, ValidateQuestion(items[i]).value))
  }

  function ToQuestions(items: seq<RawQuestion>): (r: seq<Question>)
    requires AllWellFormed(items)
    ensures |r| == |items|
    ensures forall i :: 0 <= i < |r| ==> r[i] == ToQuestion(items[i]) && ValidQuestion(r[i])
  {
    seq(|items|, i requires 0 <= i < |items| => ToQuestion(items[i]))
  }

  // ----- create, update, delete, read -----

  /** The quiz fields of a create or update body; `None` is `undefined`. */
  datatype QuizBody = QuizBody(
    courseTitle: Option<string>,
    teacherId: Option<Id>,
    teacherName: Option<string>,
    title: Option<string>,
    description: Option<string>,
    questions: QuestionsField,
    status: Option<string>)

  /** `value || undefined` on a trimmed optional path. */
  function TrimmedIfPresent(v: Option<string>): Option<string> {
    if Present(v) then Some(Trim(v.value)) else None
  }

  /** The document `new Quiz({...})` builds on create, or `None` when saving it
      fails validation (an unknown status, or a title that trims to nothing). */
  function NewQuiz(me: Caller, body: QuizBody): (r: Option<Quiz>)
    requires CheckQuestions(body.questions).None?
    ensures r.Some? ==> ValidQuiz(r.value)
    ensures r.Some? <==>
      Trim(body.title.GetOr([])) != [] && (!Present(body.status) || ParseQuizStatus(body.status.value).Some?)
    ensures r.Some? ==>
      && r.value.title == Trim(body.title.value)
      && r.value.createdBy == Some(me.id)
      && r.value.description == Some(if Present(body.description) then Trim(body.description.value) else "")
      && r.value.status == (if Present(body.status) then ParseQuizStatus(body.status.value).value else Published)
      && r.value.questions == (if body.questions.QuestionsArray? then ToQuestions(body.questions.items) else [])
    // `courseTitle || undefined` and the like: a falsy field is left unset
    ensures r.Some? ==>
      && r.value.teacherId == body.teacherId
      && (Present(body.courseTitle) ==> r.value.courseTitle == Some(Trim(body.courseTitle.value)))
      && (!Present(body.courseTitle) ==> r.value.courseTitle.None?)
      && (Present(body.teacherName) ==> r.value.teacherName == Some(Trim(body.teacherName.value)))
      && (!Present(body.teacherName) ==> r.value.teacherName.None?)
  {
    var status := if Present(body.status) then ParseQuizStatus(body.status.value) else Some(DefaultQuizStatus);
    var title := Trim(body.title.GetOr([]));
    if status.None? || title == [] then None
    else
      Some(Quiz(
        courseTitle := TrimmedIfPresent(body.courseTitle),
        teacherId := body.teacherId,
        teacherName := TrimmedIfPresent(body.teacherName),
        title := title,
        description := Some(if Present(body.description) then Trim(body.description.value) else ""),
        questions := if body.questions.QuestionsArray? then ToQuestions(body.questions.items) else [],
        createdBy := Some(me.id),
        status := status.value))
  }

  /** `POST /create`: a missing title or a bad `questions` field is 400 and
      nothing is written; a document that fails validation on save is 500; on
      success the new quiz is stored under the fresh id `newId`. */
  function CreateQuiz(caller: Option<Caller>, quizzes: QuizStore, body: QuizBody, newId: Id): (r: Outcome<QuizStore>)
    ensures AdminGate(caller).Halt? ==> r == Outcome(AdminGate(caller).status, quizzes)
    ensures r.status != Created ==> r.store == quizzes
    ensures AdminGate(caller) == Next ==>
      (r.status == BadRequest <==> !Present(body.title) || CheckQuestions(body.questions).Some?)
    ensures (AdminGate(caller) == Next && Present(body.title) && CheckQuestions(body.questions).None? &&
             (NewQuiz(caller.value, body).None? || newId in quizzes)) ==> r.status == ServerError
    ensures r.status == Created <==>
      && AdminGate(caller) == Next && Present(body.title) && CheckQuestions(body.questions).None?
      && NewQuiz(caller.value, body).Some? && newId !in quizzes
    ensures r.status == Created ==> r.store == quizzes[newId := NewQuiz(caller.value, body).value]
  {
    match AdminGate(caller)
    case Halt(s) => Outcome(s, quizzes)
    case Next =>
      if !Present(body.title) then Outcome(BadRequest, quizzes)
      else if CheckQuestions(body.questions).Some? then Outcome(BadRequest, quizzes)
      else
        match NewQuiz(caller.value, body)
        case None => Outcome(ServerError, quizzes)
        case Some(quiz) =>
          if newId in quizzes then Outcome(ServerError, quizzes)
          else Outcome(Created, quizzes[newId := quiz])
  }

  /** The `!== undefined` overlay of an update, or `None` when saving the result
      fails validation: an unknown status, a title that is or trims to nothing,
      or, when the body carries no `questions`, a stored question that fails the
      schema. Fields absent from the body keep their values; given ones are
      stored through their setters. */
  function Overlay(q: Quiz, body: QuizBody): (r: Option<Quiz>)
    requires CheckQuestions(body.questions).None?
    ensures r.Some? <==>
      && (body.status.None? || ParseQuizStatus(body.status.value).Some?)
      && (if body.title.Some? then Trim(body.title.value) != [] else q.title != [])
      && (body.questions.QuestionsArray? || QuestionsPassSchema(q.questions))
    ensures r.Some? ==> PassesSchema(r.value)
    ensures ValidQuiz(q) && r.Some? ==> ValidQuiz(r.value)
    ensures r.Some? ==>
      && (body.courseTitle.None? ==> r.value.courseTitle == q.courseTitle)
      && (body.teacherId.None? ==> r.value.teacherId == q.teacherId)
      && (body.teacherName.None? ==> r.value.teacherName == q.teacherName)
      && (body.title.None? ==> r.value.title == q.title)
      && (body.description.None? ==> r.value.description == q.description)
      && (body.questions.QuestionsAbsent? ==> r.value.questions == q.questions)
      && (body.status.None? ==> r.value.status == q.status)
      && r.value.createdBy == q.createdBy
    ensures r.Some? ==>
      && (body.courseTitle.Some? ==> r.value.courseTitle == Some(Trim(body.courseTitle.value)))
      && (body.teacherId.Some? ==> r.value.teacherId == body.teacherId)
      && (body.teacherName.Some? ==> r.value.teacherName == Some(Trim(body.teacherName.value)))
      && (body.title.Some? ==> r.value.title == Trim(body.title.value))
      && (body.description.Some? ==> r.value.description == Some(Trim(body.description.value)))
      && (body.questions.QuestionsArray? ==> r.value.questions == ToQuestions(body.questions.items))
      && (body.status.Some? ==> QuizStatusName(r.value.status) == body.status.value)
  {
    var status := if body.status.Some? then ParseQuizStatus(body.status.value) else Some(q.status);
    if status.None? then None
    else
      var u := Quiz(
        courseTitle := AssignTrimmed(body.courseTitle, q.courseTitle),
        teacherId := if body.teacherId.Some? then body.teacherId else q.teacherId,
        teacherName := AssignTrimmed(body.teacherName, q.teacherName),
        title := if body.title.Some? then Trim(body.title.value) else q.title,
        description := AssignTrimmed(body.description, q.description),
        questions := if body.questions.QuestionsArray? then ToQuestions(body.questions.items) else q.questions,
        createdBy := q.createdBy,
        status := status.value);
      if PassesSchema(u) then Some(u) else None
  }

  /** For a quiz saved through the routes, only the body can make the overlay
      fail: an unknown status or a title that trims to nothing. */
  lemma OverlayOfValidQuiz(q: Quiz, body: QuizBody)
    requires ValidQuiz(q) && CheckQuestions(body.questions).None?
    ensures Overlay(q, body).Some? <==>
      (body.title.None? || Trim(body.title.value) != []) &&
      (body.status.None? || ParseQuizStatus(body.status.value).Some?)
  {
  }

  /** `PUT /:id/update`: id format (400), existence (404), the `questions` field
      (400), then the overlay, whose validation error on save is also 400. Only a
      document that passes validation is written. */
  function UpdateQuiz(caller: Option<Caller>, quizzes: QuizStore, param: IdParam, body: QuizBody): (r: Outcome<QuizStore>)
    ensures AdminGate(caller).Halt? ==> r == Outcome(AdminGate(caller).status, quizzes)
    ensures r.status != Ok ==> r.store == quizzes
    ensures AdminGate(caller) == Next && param.Malformed? ==> r.status == BadRequest
    ensures AdminGate(caller) == Next && param.WellFormed? && param.id !in quizzes ==> r.status == NotFound
    ensures AdminGate(caller) == Next && param.WellFormed? && param.id in quizzes ==>
      && (CheckQuestions(body.questions).Some? ==> r.status == BadRequest)
      && (CheckQuestions(body.questions).None? && Overlay(quizzes[param.id], body).None? ==> r.status == BadRequest)
    ensures r.status == Ok <==>
      && AdminGate(caller) == Next && param.WellFormed? && param.id in quizzes
      && CheckQuestions(body.questions).None? && Overlay(quizzes[param.id], body).Some?
    ensures r.status == Ok ==> r.store == quizzes[param.id := Overlay(quizzes[param.id], body).value]
  {
    match AdminGate(caller)
    case Halt(s) => Outcome(s, quizzes)
    case Next =>
      if param.Malformed? then Outcome(BadRequest, quizzes)
      else if param.id !in quizzes then Outcome(NotFound, quizzes)
      else if CheckQuestions(body.questions).Some? then Outcome(BadRequest, quizzes)
      else
        match Overlay(quizzes[param.id], body)
        case None => Outcome(BadRequest, quizzes)
        case Some(updated) => Outcome(Ok, quizzes[param.id := updated])
  }

  /** `DELETE /:id/delete`: removes exactly the quiz named, after the id-format
      (400) and existence (404) checks. */
  function DeleteQuiz(caller: Option<Caller>, quizzes: QuizStore, param: IdParam): (r: Outcome<QuizStore>)
    ensures AdminGate(caller).Halt? ==> r == Outcome(AdminGate(caller).status, quizzes)
    ensures r.status != Ok ==> r.store == quizzes
    ensures AdminGate(caller) == Next ==>
      (r.status == Ok <==> param.WellFormed? && param.id in quizzes)
    ensures AdminGate(caller) == Next && r.status != Ok ==>
      r.status == (if param.Malformed? then BadRequest else NotFound)
    ensures r.status == Ok ==> r.store.Keys == quizzes.Keys - {param.id}
    ensures r.status == Ok ==> forall k :: k in r.store ==> r.store[k] == quizzes[k]
  {
    match AdminGate(caller)
    case Halt(s) => Outcome(s, quizzes)
    case Next =>
      if param.Malformed? then Outcome(BadRequest, quizzes)
      else if param.id !in quizzes then Outcome(NotFound, quizzes)
      else Outcome(Ok, quizzes - {param.id})
  }

  /** `GET /:id` (public). */
  function GetQuiz(quizzes: QuizStore, param: IdParam): (r: Reply<Quiz>)
    ensures r.status == Ok <==> param.WellFormed? && param.id in quizzes
    ensures r.status == Ok ==> r.data == Some(quizzes[param.id])
    ensures r.status != Ok ==> r.status == (if param.Malformed? then BadRequest else NotFound) && r.data.None?
  {
    if param.Malformed? then Reply(BadRequest, None)
    else if param.id !in quizzes then Reply(NotFound, None)
    else Reply(Ok, Some(quizzes[param.id]))
  }

  // ----- listing -----

  /** The query filters of `GET /`. A `teacher_id` that is not a valid ObjectId is
      ignored rather than refused. */
  datatype QuizFilter = QuizFilter(teacherId: Option<IdParam>, status: Option<string>)

  predicate Matches(f: QuizFilter, q: Quiz) {
    && (f.teacherId.Some? && f.teacherId.value.WellFormed? ==> q.teacherId == Some(f.teacherId.value.id))
    && (Present(f.status) ==> QuizStatusName(q.status) == f.status.value)
  }

  function Matcher(f: QuizFilter): Quiz -> bool {
    (q: Quiz) => Matches(f, q)
  }

  /** `(Math.max(page, 1) - 1) * limit`. */
  function PageSkip(page: int, limit: int): int {
    (if page < 1 then 0 else page - 1) * limit
  }

  /** The response of `GET /`: the total number of matches, the requested page
      number and the documents of that page. */
  datatype QuizPage = QuizPage(count: nat, page: int, items: seq<(Id, Quiz)>)

  /** `.skip(skip).limit(limit)` on a result list with `skip >= 0`: a limit of 0
      means no limit and a negative limit counts as its absolute value. */
  function Window<T>(all: seq<T>, skip: nat, limit: int): (r: seq<T>)
    ensures skip >= |all| ==> r == []
    ensures skip < |all| ==> skip + |r| <= |all| && r == all[skip..skip + |r|]
    ensures limit == 0 ==> |r| == (if skip < |all| then |all| - skip else 0)
    ensures limit != 0 ==> |r| == Min(if limit < 0 then -limit else limit, if skip < |all| then |all| - skip else 0)
  {
    if skip >= |all| then []
    else
      var cap := if limit < 0 then -limit else limit;
      var n := if cap == 0 then |all| - skip else Min(cap, |all| - skip);
      all[skip..skip + n]
  }

  function Min(a: int, b: int): int {
    if a < b then a else b
  }

  /** `GET /` (public): the matches in natural order, skipped and limited. A
      negative skip is refused by the database, which surfaces as 500. */
  function ListQuizzes(quizzes: QuizStore, f: QuizFilter, page: int, limit: int): (r: Reply<QuizPage>)
    ensures r.status == ServerError <==> PageSkip(page, limit) < 0
    ensures r.status == Ok ==> r.data.Some?
    ensures r.status == Ok ==>
      && r.data.value.count == |Find(quizzes, Matcher(f))|
      && r.data.value.page == page
      && r.data.value.items == Window(Find(quizzes, Matcher(f)), PageSkip(page, limit), limit)
  {
    var all := Find(quizzes, Matcher(f));
    var skip := PageSkip(page, limit);
    if skip < 0 then Reply(ServerError, None)
    else Reply(Ok, Some(QuizPage(|all|, page, Window(all, skip, limit))))
  }

  /** Every listed quiz is stored under its id and matches the filter. */
  lemma {:induction false} ListedQuizzesMatch(quizzes: QuizStore, f: QuizFilter, page: int, limit: int)
    requires ListQuizzes(quizzes, f, page, limit).status == Ok
    ensures forall x :: x in ListQuizzes(quizzes, f, page, limit).data.value.items ==>
      x.0 in quizzes && quizzes[x.0] == x.1 && Matches(f, x.1)
  {
    var all := Find(quizzes, Matcher(f));
    var items := Window(all, PageSkip(page, limit), limit);
    WindowWithin(all, PageSkip(page, limit), limit);
    forall x | x in items ensures x.0 in quizzes && quizzes[x.0] == x.1 && Matches(f, x.1) {
      var a :| 0 <= a < |all| && all[a] == x;
      assert Matcher(f)(x.1);
    }
  }

  /** A window holds only elements of the list it is cut from. */
  lemma {:induction false} WindowWithin<T>(all: seq<T>, skip: nat, limit: int)
    ensures forall x :: x in Window(all, skip, limit) ==> x in all
  {
    var w := Window(all, skip, limit);
    forall x | x in w ensures x in all {
      var a :| 0 <= a < |w| && w[a] == x;
      assert all[skip + a] == x;
    }
  }

  lemma MulMonotone(a: int, b: int, l: int)
    requires a <= b && l >= 0
    ensures a * l <= b * l
  {
  }

  /** Two windows of a list with strictly ascending ids, the second starting at
      or after the end of the first, share no id. */
  lemma {:induction false} WindowsDisjoint<R>(all: seq<(Id, R)>, s1: nat, s2: nat, limit: int)
    requires forall i, j :: 0 <= i < j < |all| ==> all[i].0 < all[j].0
    requires limit > 0 && s1 + limit <= s2
    ensures forall x, y :: x in Window(all, s1, limit) && y in Window(all, s2, limit) ==> x.0 != y.0
  {
    var w1 := Window(all, s1, limit);
    var w2 := Window(all, s2, limit);
    forall x, y | x in w1 && y in w2 ensures x.0 != y.0 {
      var a :| 0 <= a < |w1| && w1[a] == x;
      var b :| 0 <= b < |w2| && w2[b] == y;
      assert all[s1 + a] == x;
      assert all[s2 + b] == y;
      assert s1 + a < s2 + b;
    }
  }

  /** Pages of a positive limit do not overlap: no quiz appears on two pages. */
  lemma {:induction false} PagesAreDisjoint(quizzes: QuizStore, f: QuizFilter, p1: int, p2: int, limit: int)
    requires 1 <= p1 < p2 && limit > 0
    ensures ListQuizzes(quizzes, f, p1, limit).status == Ok
    ensures ListQuizzes(quizzes, f, p2, limit).status == Ok
    ensures forall x, y ::
      x in ListQuizzes(quizzes, f, p1, limit).data.value.items &&
      y in ListQuizzes(quizzes, f, p2, limit).data.value.items
      ==> x.0 != y.0
  {
    MulMonotone(0, p1 - 1, limit);
    MulMonotone(p1, p2 - 1, limit);
    var s1 := PageSkip(p1, limit);
    var s2 := PageSkip(p2, limit);
    assert s1 + limit <= s2 by {
      assert s1 + limit == p1 * limit;
    }
    WindowsDisjoint(Find(quizzes, Matcher(f)), s1, s2, limit);
  }

  // ----- question-list edits -----

  /** `quiz.save()` after an edit: the whole document is validated again, and a
      failure is 500 with nothing written. */
  function SaveQuiz(quizzes: QuizStore, id: Id, q: Quiz, success: Status): (r: Outcome<QuizStore>)
    // a document that fails validation is a 500 and nothing is written
    ensures !PassesSchema(q) ==> r.status == ServerError && r.store == quizzes
    // one that passes is stored under `id`, and every other quiz is kept
    ensures PassesSchema(q) ==> r.status == success
    ensures PassesSchema(q) ==> id in r.store && r.store[id] == q && r.store - {id} == quizzes - {id}
  {
    if PassesSchema(q) then Outcome(success, quizzes[id := q]) else Outcome(ServerError, quizzes)
  }

  /** The quiz with `x` appended to its questions. */
  function WithAppended(quiz: Quiz, x: Question): Quiz {
    quiz.(questions := quiz.questions + [x])
  }

  /** The quiz with its question at `index` set to `x`. */
  function WithQuestion(quiz: Quiz, index: nat, x: Question): Quiz
    requires index < |quiz.questions|
  {
    quiz.(questions := quiz.questions[index := x])
  }

  /** The quiz without its question at `index`. */
  function WithoutQuestion(quiz: Quiz, index: nat): Quiz
    requires index < |quiz.questions|
  {
    quiz.(questions := quiz.questions[..index] + quiz.questions[index + 1..])
  }

  /** Appending a question that passes validation does not change whether the
      list does. */
  lemma {:induction false} AppendPassesSchema(qs: seq<Question>, x: Question)
    requires QuestionPassesSchema(x)
    ensures QuestionsPassSchema(qs + [x]) <==> QuestionsPassSchema(qs)
  {
    if QuestionsPassSchema(qs + [x]) {
      forall i | 0 <= i < |qs| ensures QuestionPassesSchema(qs[i]) {
        assert (qs + [x])[i] == qs[i];
      }
    }
  }

  /** `POST /:id/questions`: appends a valid question. The id format (400) and the
      question (400) are checked before the quiz is looked up (404); a stored quiz
      that fails validation on save is 500. */
  function AddQuestion(caller: Option<Caller>, quizzes: QuizStore, param: IdParam, q: RawQuestion): (r: Outcome<QuizStore>)
    ensures AdminGate(caller).Halt? ==> r == Outcome(AdminGate(caller).status, quizzes)
    ensures r.status != Created ==> r.store == quizzes
    ensures AdminGate(caller) == Next ==>
      && (param.Malformed? || !WellFormed(q) ==> r.status == BadRequest)
      && (param.WellFormed? && WellFormed(q) && param.id !in quizzes ==> r.status == NotFound)
      && (param.WellFormed? && WellFormed(q) && param.id in quizzes && !PassesSchema(quizzes[param.id]) ==>
            r.status == ServerError)
    ensures r.status == Created <==>
      && AdminGate(caller) == Next && param.WellFormed? && WellFormed(q)
      && param.id in quizzes && PassesSchema(quizzes[param.id])
    ensures r.status == Created ==> param.id in r.store
    ensures r.status == Created ==>
      var before := quizzes[param.id].questions;
      var after := r.store[param.id].questions;
      && r.store == quizzes[param.id := quizzes[param.id].(questions := after)]
      && |after| == |before| + 1
      && after[..|before|] == before
      && after[|before|] == ToQuestion(q)
  {
    match AdminGate(caller)
    case Halt(s) => Outcome(s, quizzes)
    case Next =>
      if param.Malformed? then Outcome(BadRequest, quizzes)
      else if ValidateQuestion(q).Some? then Outcome(BadRequest, quizzes)
      else if param.id !in quizzes then Outcome(NotFound, quizzes)
      else
        var quiz := quizzes[param.id];
        var updated := WithAppended(quiz, ToQuestion(q));
        ToQuestionValid(q);
        AppendPassesSchema(quiz.questions, ToQuestion(q));
        assert updated.questions[..|quiz.questions|] == quiz.questions;
        SaveQuiz(quizzes, param.id, updated, Created)
  }

  /** `PUT /:id/questions/:index`: replaces the question at `index` with a valid
      one. A negative index and an invalid question are 400 before the lookup;
      an index past the end is 400 after it; a result that fails validation on
      save is 500. */
  function ReplaceQuestion(caller: Option<Caller>, quizzes: QuizStore, param: IdParam, index: int, q: RawQuestion): (r: Outcome<QuizStore>)
    ensures AdminGate(caller).Halt? ==> r == Outcome(AdminGate(caller).status, quizzes)
    ensures r.status != Ok ==> r.store == quizzes
    ensures AdminGate(caller) == Next ==>
      && (param.Malformed? || index < 0 || !WellFormed(q) ==> r.status == BadRequest)
      && (param.WellFormed? && WellFormed(q) && param.id !in quizzes && index >= 0 ==> r.status == NotFound)
      && (param.WellFormed? && param.id in quizzes && index >= |quizzes[param.id].questions| ==> r.status == BadRequest)
      && ((param.WellFormed? && WellFormed(q) && param.id in quizzes && 0 <= index < |quizzes[param.id].questions| &&
           !PassesSchema(WithQuestion(quizzes[param.id], index, ToQuestion(q)))) ==> r.status == ServerError)
    ensures r.status == Ok <==>
      && AdminGate(caller) == Next && param.WellFormed? && WellFormed(q)
      && param.id in quizzes && 0 <= index < |quizzes[param.id].questions|
      && PassesSchema(WithQuestion(quizzes[param.id], index, ToQuestion(q)))
    ensures r.status == Ok ==>
      var before := quizzes[param.id].questions;
      && r.store == quizzes[param.id := quizzes[param.id].(questions := before[index := ToQuestion(q)])]
  {
    match AdminGate(caller)
    case Halt(s) => Outcome(s, quizzes)
    case Next =>
      if param.Malformed? || index < 0 then Outcome(BadRequest, quizzes)
      else if ValidateQuestion(q).Some? then Outcome(BadRequest, quizzes)
      else if param.id !in quizzes then Outcome(NotFound, quizzes)
      else if index >= |quizzes[param.id].questions| then Outcome(BadRequest, quizzes)
      else SaveQuiz(quizzes, param.id, WithQuestion(quizzes[param.id], index, ToQuestion(q)), Ok)
  }

  /** A partial question body; `Absent` and `OptionsAbsent` mean the key is not
      in the body. */
  datatype QuestionPatch = QuestionPatch(questionText: Field, options: OptionsField, correctAnswer: Field)

  /** `{ ...current, ...patch }`: a shallow merge, so a patched `options` object
      replaces all four options. */
  function Merge(current: Question, p: QuestionPatch): RawQuestion {
    var base := AsRaw(current);
    QuestionObject(
      if p.questionText.Absent? then base.questionText else p.questionText,
      if p.options.OptionsAbsent? then base.options else p.options,
      if p.correctAnswer.Absent? then base.correctAnswer else p.correctAnswer)
  }

  /** `PATCH /:id/questions/:index`: stores the merged question only if it is
      valid; otherwise 400 and nothing changes. A result that fails validation
      on save is 500. */
  function PatchQuestion(caller: Option<Caller>, quizzes: QuizStore, param: IdParam, index: int, p: QuestionPatch): (r: Outcome<QuizStore>)
    ensures AdminGate(caller).Halt? ==> r == Outcome(AdminGate(caller).status, quizzes)
    ensures r.status != Ok ==> r.store == quizzes
    ensures AdminGate(caller) == Next ==>
      && (param.Malformed? || index < 0 ==> r.status == BadRequest)
      && (param.WellFormed? && index >= 0 && param.id !in quizzes ==> r.status == NotFound)
      && (param.WellFormed? && param.id in quizzes && index >= |quizzes[param.id].questions| ==> r.status == BadRequest)
      && (param.WellFormed? && param.id in quizzes && 0 <= index < |quizzes[param.id].questions| ==>
            var merged := Merge(quizzes[param.id].questions[index], p);
            && (!WellFormed(merged) ==> r.status == BadRequest)
            && (WellFormed(merged) && !PassesSchema(WithQuestion(quizzes[param.id], index, ToQuestion(merged))) ==>
                  r.status == ServerError))
    ensures r.status == Ok <==>
      && AdminGate(caller) == Next
      && param.WellFormed? && param.id in quizzes && 0 <= index < |quizzes[param.id].questions|
      && WellFormed(Merge(quizzes[param.id].questions[index], p))
      && PassesSchema(WithQuestion(quizzes[param.id], index, ToQuestion(Merge(quizzes[param.id].questions[index], p))))
    ensures r.status == Ok ==>
      var before := quizzes[param.id].questions;
      var merged := Merge(before[index], p);
      && r.store == quizzes[param.id := quizzes[param.id].(questions := before[index := ToQuestion(merged)])]
  {
    match AdminGate(caller)
    case Halt(s) => Outcome(s, quizzes)
    case Next =>
      if param.Malformed? || index < 0 then Outcome(BadRequest, quizzes)
      else if param.id !in quizzes then Outcome(NotFound, quizzes)
      else if index >= |quizzes[param.id].questions| then Outcome(BadRequest, quizzes)
      else
        var quiz := quizzes[param.id];
        var merged := Merge(quiz.questions[index], p);
        if ValidateQuestion(merged).Some? then Outcome(BadRequest, quizzes)
        else SaveQuiz(quizzes, param.id, WithQuestion(quiz, index, ToQuestion(merged)), Ok)
  }

  /** `DELETE /:id/questions/:index`: removes the question at `index`, keeping
      the order of the others; a result that fails validation on save is 500. */
  function DeleteQuestion(caller: Option<Caller>, quizzes: QuizStore, param: IdParam, index: int): (r: Outcome<QuizStore>)
    ensures AdminGate(caller).Halt? ==> r == Outcome(AdminGate(caller).status, quizzes)
    ensures r.status != Ok ==> r.store == quizzes
    ensures AdminGate(caller) == Next ==>
      && (param.Malformed? || index < 0 ==> r.status == BadRequest)
      && (param.WellFormed? && index >= 0 && param.id !in quizzes ==> r.status == NotFound)
      && (param.WellFormed? && param.id in quizzes && index >= |quizzes[param.id].questions| ==> r.status == BadRequest)
      && ((param.WellFormed? && param.id in quizzes && 0 <= index < |quizzes[param.id].questions| &&
           !PassesSchema(WithoutQuestion(quizzes[param.id], index))) ==> r.status == ServerError)
    ensures r.status == Ok <==>
      && AdminGate(caller) == Next && param.WellFormed? && param.id in quizzes
      && 0 <= index < |quizzes[param.id].questions|
      && PassesSchema(WithoutQuestion(quizzes[param.id], index))
    ensures r.status == Ok ==>
      var before := quizzes[param.id].questions;
      && r.store == quizzes[param.id := quizzes[param.id].(questions := before[..index] + before[index + 1..])]
  {
    match AdminGate(caller)
    case Halt(s) => Outcome(s, quizzes)
    case Next =>
      if param.Malformed? || index < 0 then Outcome(BadRequest, quizzes)
      else if param.id !in quizzes then Outcome(NotFound, quizzes)
      else if index >= |quizzes[param.id].questions| then Outcome(BadRequest, quizzes)
      else SaveQuiz(quizzes, param.id, WithoutQuestion(quizzes[param.id], index), Ok)
  }

  // ----- properties across routes -----

  /** Every write route stores only valid quizzes: create and update validate the
      whole document, and the question edits re-validate on save. */
  lemma {:induction false} WritesKeepQuizzesValid(
    caller: Option<Caller>, quizzes: QuizStore, param: IdParam, body: QuizBody, newId: Id,
    index: int, q: RawQuestion, p: QuestionPatch)
    requires ValidQuizzes(quizzes)
    ensures ValidQuizzes(CreateQuiz(caller, quizzes, body, newId).store)
    ensures ValidQuizzes(UpdateQuiz(caller, quizzes, param, body).store)
    ensures ValidQuizzes(DeleteQuiz(caller, quizzes, param).store)
    ensures ValidQuizzes(AddQuestion(caller, quizzes, param, q).store)
    ensures ValidQuizzes(ReplaceQuestion(caller, quizzes, param, index, q).store)
    ensures ValidQuizzes(PatchQuestion(caller, quizzes, param, index, p).store)
    ensures ValidQuizzes(DeleteQuestion(caller, quizzes, param, index).store)
  {
    CreateKeepsValid(caller, quizzes, body, newId);
    UpdateKeepsValid(caller, quizzes, param, body);
    DeleteKeepsValid(caller, quizzes, param);
    AddKeepsValid(caller, quizzes, param, q);
    ReplaceKeepsValid(caller, quizzes, param, index, q);
    PatchKeepsValid(caller, quizzes, param, index, p);
    DeleteQuestionKeepsValid(caller, quizzes, param, index);
  }

  lemma CreateKeepsValid(caller: Option<Caller>, quizzes: QuizStore, body: QuizBody, newId: Id)
    requires ValidQuizzes(quizzes)
    ensures ValidQuizzes(CreateQuiz(caller, quizzes, body, newId).store)
  {
  }

  lemma UpdateKeepsValid(caller: Option<Caller>, quizzes: QuizStore, param: IdParam, body: QuizBody)
    requires ValidQuizzes(quizzes)
    ensures ValidQuizzes(UpdateQuiz(caller, quizzes, param, body).store)
  {
  }

  lemma DeleteKeepsValid(caller: Option<Caller>, quizzes: QuizStore, param: IdParam)
    requires ValidQuizzes(quizzes)
    ensures ValidQuizzes(DeleteQuiz(caller, quizzes, param).store)
  {
  }

  /** On a store of valid quizzes, adding a well-formed question to an existing
      quiz always succeeds, and the store stays valid. */
  lemma AddKeepsValid(caller: Option<Caller>, quizzes: QuizStore, param: IdParam, q: RawQuestion)
    requires ValidQuizzes(quizzes)
    ensures AdminGate(caller) == Next && param.WellFormed? && WellFormed(q) && param.id in quizzes ==>
      AddQuestion(caller, quizzes, param, q).status == Created
    ensures ValidQuizzes(AddQuestion(caller, quizzes, param, q).store)
  {
    var r := AddQuestion(caller, quizzes, param, q);
    if AdminGate(caller) == Next && param.WellFormed? && WellFormed(q) && param.id in quizzes {
      assert PassesSchema(quizzes[param.id]);
    }
    if r.status == Created {
      var quiz := quizzes[param.id];
      var after := r.store[param.id].questions;
      ToQuestionValid(q);
      forall i | 0 <= i < |after| ensures ValidQuestion(after[i]) {
        if i < |quiz.questions| {
          assert after[i] == after[..|quiz.questions|][i];
        }
      }
    }
  }

  /** On a store of valid quizzes, replacing an existing question with a
      well-formed one always succeeds, and the store stays valid. */
  lemma ReplaceKeepsValid(caller: Option<Caller>, quizzes: QuizStore, param: IdParam, index: int, q: RawQuestion)
    requires ValidQuizzes(quizzes)
    ensures (AdminGate(caller) == Next && param.WellFormed? && WellFormed(q) && param.id in quizzes &&
             0 <= index < |quizzes[param.id].questions|) ==> ReplaceQuestion(caller, quizzes, param, index, q).status == Ok
    ensures ValidQuizzes(ReplaceQuestion(caller, quizzes, param, index, q).store)
  {
    var r := ReplaceQuestion(caller, quizzes, param, index, q);
    if AdminGate(caller) == Next && param.WellFormed? && WellFormed(q) && param.id in quizzes &&
      0 <= index < |quizzes[param.id].questions|
    {
      ToQuestionValid(q);
      assert ValidQuiz(WithQuestion(quizzes[param.id], index, ToQuestion(q)));
    }
  }

  /** On a store of valid quizzes, a patch whose merge is well formed always
      succeeds, and the store stays valid. */
  lemma PatchKeepsValid(caller: Option<Caller>, quizzes: QuizStore, param: IdParam, index: int, p: QuestionPatch)
    requires ValidQuizzes(quizzes)
    ensures (AdminGate(caller) == Next && param.WellFormed? && param.id in quizzes &&
             0 <= index < |quizzes[param.id].questions| && WellFormed(Merge(quizzes[param.id].questions[index], p)))
      ==> PatchQuestion(caller, quizzes, param, index, p).status == Ok
    ensures ValidQuizzes(PatchQuestion(caller, quizzes, param, index, p).store)
  {
    var r := PatchQuestion(caller, quizzes, param, index, p);
    if AdminGate(caller) == Next && param.WellFormed? && param.id in quizzes &&
      0 <= index < |quizzes[param.id].questions| && WellFormed(Merge(quizzes[param.id].questions[index], p))
    {
      var merged := Merge(quizzes[param.id].questions[index], p);
      ToQuestionValid(merged);
      assert ValidQuiz(WithQuestion(quizzes[param.id], index, ToQuestion(merged)));
    }
  }

  /** On a store of valid quizzes, deleting an existing question always
      succeeds, and the store stays valid. */
  lemma DeleteQuestionKeepsValid(caller: Option<Caller>, quizzes: QuizStore, param: IdParam, index: int)
    requires ValidQuizzes(quizzes)
    ensures (AdminGate(caller) == Next && param.WellFormed? && param.id in quizzes &&
             0 <= index < |quizzes[param.id].questions|) ==> DeleteQuestion(caller, quizzes, param, index).status == Ok
    ensures ValidQuizzes(DeleteQuestion(caller, quizzes, param, index).store)
  {
    if AdminGate(caller) == Next && param.WellFormed? && param.id in quizzes &&
      0 <= index < |quizzes[param.id].questions|
    {
      var before := quizzes[param.id].questions;
      var updated := WithoutQuestion(quizzes[param.id], index);
      forall i | 0 <= i < |updated.questions| ensures ValidQuestion(updated.questions[i]) {
        if i < index {
          assert updated.questions[i] == before[i];
        } else {
          assert updated.questions[i] == before[i + 1];
        }
      }
      assert ValidQuiz(updated);
    }
  }

  lemma ToQuestionValid(q: RawQuestion)
    requires WellFormed(q)
    ensures ValidQuestion(ToQuestion(q))
  {
  }

  /** Adding a question and then deleting the last one restores the store. */
  lemma {:induction false} AddThenDeleteRestores(caller: Option<Caller>, quizzes: QuizStore, param: IdParam, q: RawQuestion)
    requires ValidQuizzes(quizzes)
    requires AdminGate(caller) == Next && param.WellFormed? && param.id in quizzes && WellFormed(q)
    ensures AddQuestion(caller, quizzes, param, q).status == Created
    ensures
      var added := AddQuestion(caller, quizzes, param, q).store;
      ValidQuizzes(added) &&
      DeleteQuestion(caller, added, param, |quizzes[param.id].questions|) == Outcome(Ok, quizzes)
  {
    var id := param.id;
    var added := AddQuestion(caller, quizzes, param, q).store;
    AddKeepsValid(caller, quizzes, param, q);
    var n := |quizzes[id].questions|;
    var after := added[id].questions;
    assert added == quizzes[id := quizzes[id].(questions := after)];
    assert after[..n] + after[n + 1..] == quizzes[id].questions;
    DeleteQuestionKeepsValid(caller, added, param, n);
    var d := DeleteQuestion(caller, added, param, n);
    assert d.status == Ok;
    assert d.store == quizzes by {
      assert d.store == added[id := added[id].(questions := quizzes[id].questions)];
      assert added[id].(questions := quizzes[id].questions) == quizzes[id];
    }
  }

  /** A patch with no keys leaves a stored question, and so the store, as it was. */
  lemma {:induction false} EmptyPatchIsNoOp(caller: Option<Caller>, quizzes: QuizStore, param: IdParam, index: int)
    requires ValidQuizzes(quizzes)
    requires AdminGate(caller) == Next && param.WellFormed? && param.id in quizzes
    requires 0 <= index < |quizzes[param.id].questions|
    ensures PatchQuestion(caller, quizzes, param, index, QuestionPatch(Absent, OptionsAbsent, Absent)) == Outcome(Ok, quizzes)
  {
    var id := param.id;
    var before := quizzes[id].questions;
    assert ValidQuiz(quizzes[id]);
    StoredQuestionRoundTrip(before[index]);
    assert Merge(before[index], QuestionPatch(Absent, OptionsAbsent, Absent)) == AsRaw(before[index]);
    assert before[index := before[index]] == before;
    assert quizzes[id := quizzes[id].(questions := before)] == quizzes;
  }
}

=== FILE: sorting.dfy ===
/** Ordering query results: `.sort({ field: 1 })` and `.sort({ field: -1 })` on a
    numeric field. A descending sort is an ascending sort on the negated key. */
module Sorting {

  predicate SortedBy<T>(xs: seq<T>, key: T -> int) {
    forall i, j :: 0 <= i < j < |xs| ==> key(xs[i]) <= key(xs[j])
  }

  /** Places `x` in front of the first element whose key is not smaller. */
  function Insert<T>(x: T, xs: seq<T>, key: T -> int): (r: seq<T>)
    requires SortedBy(xs, key)
    ensures SortedBy(r, key)
    ensures multiset(r) == multiset(xs) + multiset{x}
    ensures |r| == |xs| + 1
    ensures key(r[0]) == key(x) || (|xs| > 0 && key(r[0]) == key(xs[0]))
  {
    if |xs| == 0 || key(x) <= key(xs[0]) then [x] + xs
    else
      var rest := Insert(x, xs[1..], key);
      assert xs == [xs[0]] + xs[1..];
      [xs[0]] + rest
  }

  /** Insertion sort: a permutation of `xs` ordered by `key`. The database leaves
      the order of equal keys unspecified; this model keeps their natural order. */
  function SortBy<T>(xs: seq<T>, key: T -> int): (r: seq<T>)
    ensures SortedBy(r, key)
    ensures multiset(r) == multiset(xs)
  {
    if |xs| == 0 then []
    else
      assert xs == [xs[0]] + xs[1..];
      Insert(xs[0], SortBy(xs[1..], key), key)
  }
}

=== FILE: text.dfy ===
/** The string operations the schemas and routes rely on: JavaScript's
    `String.prototype.trim`, `toLowerCase` and `startsWith`, and the truthiness
    of a string-valued request field. */
module Text {
  import opened Wrappers

  /** The white-space characters `trim` removes, restricted to ASCII. */
  predicate IsSpace(c: char) {
    c == ' ' || c == '\t' || c == '\n' || c == '\r' || c as int == 11 || c as int == 12
  }

  /** Neither end of `s` is white space. */
  predicate Trimmed(s: string) {
    |s| == 0 || (!IsSpace(s[0]) && !IsSpace(s[|s| - 1]))
  }

  /** A string path with `required: true` and `trim: true` holds a value. */
  predicate RequiredTrimmed(s: string) {
    s != [] && Trimmed(s)
  }

  /** `s` without its leading white space: the longest suffix that starts with a
      non-space character. */
  function TrimStart(s: string): (r: string)
    ensures |r| <= |s|
    ensures |r| == 0 || !IsSpace(r[0])
  {
    if |s| > 0 && IsSpace(s[0]) then TrimStart(s[1..]) else s
  }

  /** `s` without its trailing white space. */
  function TrimEnd(s: string): (r: string)
    ensures |r| <= |s|
    ensures |r| == 0 || !IsSpace(r[|r| - 1])
  {
    if |s| > 0 && IsSpace(s[|s| - 1]) then TrimEnd(s[..|s| - 1]) else s
  }

  /** `TrimStart` keeps a suffix. */
  lemma {:induction false} TrimStartIsSuffix(s: string)
    ensures TrimStart(s) == s[|s| - |TrimStart(s)|..]
  {
    if |s| > 0 && IsSpace(s[0]) {
      TrimStartIsSuffix(s[1..]);
    }
  }

  /** `TrimEnd` keeps a prefix. */
  lemma {:induction false} TrimEndIsPrefix(s: string)
    ensures TrimEnd(s) == s[..|TrimEnd(s)|]
  {
    if |s| > 0 && IsSpace(s[|s| - 1]) {
      TrimEndIsPrefix(s[..|s| - 1]);
    }
  }

  /** Everything `TrimStart` drops is white space. */
  lemma {:induction false} TrimStartDropsSpace(s: string)
    ensures forall i :: 0 <= i < |s| - |TrimStart(s)| ==> IsSpace(s[i])
  {
    if |s| > 0 && IsSpace(s[0]) {
      TrimStartDropsSpace(s[1..]);
      TrimStartIsSuffix(s[1..]);
      forall i | 0 < i < |s| - |TrimStart(s)| ensures IsSpace(s[i]) {
        assert s[i] == s[1..][i - 1];
      }
    }
  }

  /** Everything `TrimEnd` drops is white space. */
  lemma {:induction false} TrimEndDropsSpace(s: string)
    ensures forall i :: |TrimEnd(s)| <= i < |s| ==> IsSpace(s[i])
  {
    if |s| > 0 && IsSpace(s[|s| - 1]) {
      TrimEndDropsSpace(s[..|s| - 1]);
      TrimEndIsPrefix(s[..|s| - 1]);
      forall i | |TrimEnd(s)| <= i < |s| - 1 ensures IsSpace(s[i]) {
        assert s[i] == s[..|s| - 1][i];
      }
    }
  }

  /** How many white-space characters `s` starts with. */
  function LeadingSpace(s: string): nat
    ensures LeadingSpace(s) <= |s|
  {
    |s| - |TrimStart(s)|
  }

  /** JavaScript `s.trim()`, and the `trim: true` setter of a schema path. */
  function Trim(s: string): (r: string)
    ensures Trimmed(r)
  {
    var t := TrimStart(s);
    TrimEndIsPrefix(t);
    TrimEnd(t)
  }

  /** The trimmed string is the part of `s` after its leading white space, and
      everything around that part is white space. */
  lemma TrimIsSlice(s: string)
    ensures |Trim(s)| <= |s| - LeadingSpace(s)
    ensures Trim(s) == s[LeadingSpace(s)..LeadingSpace(s) + |Trim(s)|]
    ensures forall i :: 0 <= i < LeadingSpace(s) ==> IsSpace(s[i])
    ensures forall i :: LeadingSpace(s) + |Trim(s)| <= i < |s| ==> IsSpace(s[i])
  {
    var t := TrimStart(s);
    TrimStartIsSuffix(s);
    TrimStartDropsSpace(s);
    TrimEndIsPrefix(t);
    TrimEndDropsSpace(t);
    forall i | LeadingSpace(s) + |Trim(s)| <= i < |s| ensures IsSpace(s[i]) {
      assert s[i] == t[i - LeadingSpace(s)];
    }
  }

  /** `s.trim() === ''` holds exactly when every character of `s` is white space. */
  lemma {:induction false} TrimEmptyIffBlank(s: string)
    ensures Trim(s) == [] <==> forall i :: 0 <= i < |s| ==> IsSpace(s[i])
  {
    var t := TrimStart(s);
    TrimStartDropsSpace(s);
    TrimStartIsSuffix(s);
    TrimEndDropsSpace(t);
    TrimEndIsPrefix(t);
    if Trim(s) == [] {
      assert |t| == 0;
    } else {
      var r := Trim(s);
      assert r[0] == t[0] == s[|s| - |t|];
    }
  }

  /** Trimming twice is trimming once, so re-saving a trimmed value changes nothing. */
  lemma TrimIdempotent(s: string)
    ensures Trim(Trim(s)) == Trim(s)
  {
    TrimmedIsFixed(Trim(s));
  }

  lemma TrimmedIsFixed(s: string)
    requires Trimmed(s)
    ensures Trim(s) == s
  {
  }

  /** JavaScript `toLowerCase` on one character, restricted to ASCII letters. */
  function LowerChar(c: char): (r: char)
    ensures IsSpace(r) <==> IsSpace(c)
  {
    if 'A' <= c <= 'Z' then (c as int + 32) as char else c
  }

  /** JavaScript `s.toLowerCase()`, and the `lowercase: true` setter of a schema path. */
  function Lower(s: string): (r: string)
    ensures |r| == |s|
    ensures forall i :: 0 <= i < |s| ==> r[i] == LowerChar(s[i])
  {
    seq(|s|, i requires 0 <= i < |s| => LowerChar(s[i]))
  }

  lemma LowerIsLower(s: string)
    ensures IsLower(Lower(s))
  {
    var l := Lower(s);
    forall i | 0 <= i < |l| ensures LowerChar(l[i]) == l[i] {
      assert l[i] == LowerChar(s[i]);
    }
  }

  predicate IsLower(s: string) {
    forall i :: 0 <= i < |s| ==> LowerChar(s[i]) == s[i]
  }

  /** What the `lowercase: true, trim: true` setters store for an assigned e-mail:
      the lower-cased characters of `s` between its leading and its trailing
      white space. */
  function Normalize(s: string): (r: string)
    ensures Normalized(r)
    ensures LeadingSpace(Lower(s)) + |r| <= |s|
    ensures forall k :: 0 <= k < |r| ==> r[k] == LowerChar(s[LeadingSpace(Lower(s)) + k])
    ensures forall i :: 0 <= i < LeadingSpace(Lower(s)) ==> IsSpace(s[i])
    ensures forall i :: LeadingSpace(Lower(s)) + |r| <= i < |s| ==> IsSpace(s[i])
  {
    NormalizeParts(s);
    Trim(Lower(s))
  }

  /** Trimming the lower-cased string keeps a lower-case slice, and lower-casing
      does not move the white space. */
  lemma NormalizeParts(s: string)
    ensures Normalized(Trim(Lower(s)))
    ensures LeadingSpace(Lower(s)) + |Trim(Lower(s))| <= |s|
    ensures forall k :: 0 <= k < |Trim(Lower(s))| ==> Trim(Lower(s))[k] == LowerChar(s[LeadingSpace(Lower(s)) + k])
    ensures forall i :: 0 <= i < LeadingSpace(Lower(s)) ==> IsSpace(s[i])
    ensures forall i :: LeadingSpace(Lower(s)) + |Trim(Lower(s))| <= i < |s| ==> IsSpace(s[i])
  {
    var l := Lower(s);
    var r := Trim(l);
    var n := LeadingSpace(l);
    LowerIsLower(s);
    TrimIsSlice(l);
    LowerSlice(l, r, n);
    forall k | 0 <= k < |r| ensures r[k] == LowerChar(s[n + k]) {
      assert r[k] == l[n + k];
    }
    forall i | 0 <= i < n ensures IsSpace(s[i]) {
      assert IsSpace(l[i]);
    }
    forall i | n + |r| <= i < |s| ensures IsSpace(s[i]) {
      assert IsSpace(l[i]);
    }
  }

  predicate Normalized(s: string) {
    IsLower(s) && Trimmed(s)
  }

  /** A slice of a lower-case string is lower case. */
  lemma LowerSlice(s: string, r: string, i: nat)
    requires IsLower(s)
    requires i + |r| <= |s| && r == s[i..i + |r|]
    ensures IsLower(r)
  {
    forall k | 0 <= k < |r| ensures LowerChar(r[k]) == r[k] {
      assert r[k] == s[i + k];
    }
  }

  /** A stored e-mail is its own normal form: normalizing is idempotent. */
  lemma {:induction false} NormalizeFixesNormalized(s: string)
    requires Normalized(s)
    ensures Normalize(s) == s
  {
    assert Lower(s) == s;
    TrimmedIsFixed(s);
  }

  /** JavaScript `s.startsWith(prefix)`. */
  predicate StartsWith(s: string, prefix: string) {
    |prefix| <= |s| && s[..|prefix|] == prefix
  }

  /** An optional `trim: true` path holds no value or a trimmed one. */
  predicate OptionalTrimmed(v: Option<string>) {
    v.None? || Trimmed(v.value)
  }

  /** `doc.field = value` for an optional `trim: true` path when the request
      carries `value`: an absent field keeps `current`, a given one is stored
      trimmed. */
  function AssignTrimmed(v: Option<string>, current: Option<string>): (r: Option<string>)
    ensures v.None? ==> r == current
    ensures v.Some? ==> r == Some(Trim(v.value))
    ensures OptionalTrimmed(current) ==> OptionalTrimmed(r)
  {
    if v.Some? then Some(Trim(v.value)) else current
  }

  /** A string-valued request field is truthy when it is present and non-empty. */
  predicate Present(field: Option<string>) {
    field.Some? && field.value != []
  }
}

=== FILE: user_routes.dfy ===
/** The admin-only handlers of `routes/userRoutes.js`: list, get, create, update
    and delete users. Email addresses are stored lower-cased and trimmed and are
    unique; no response carries the password. */
module UserRoutes {
  import opened Wrappers
  import opened Text
  import opened Ids
  import opened Http
  import opened Accounts
  import opened Gates

  // ----- responses -----

  /** A user as `.select('-password -password_hash -__v')` returns it: every
      path but the password. */
  datatype UserView = UserView(id: Id, fullName: string, email: string, role: Role, gender: Option<Gender>, status: AccountStatus)

  function View(id: Id, u: User): (v: UserView)
    ensures v.id == id && v.fullName == u.fullName && v.email == u.email
    ensures v.role == u.role && v.gender == u.gender && v.status == u.status
  {
    UserView(id, u.fullName, u.email, u.role, u.gender, u.status)
  }

  /** A response reveals nothing about the password: users that differ only in
      their password have the same view. */
  lemma ViewHidesPassword(id: Id, u: User, password: string)
    ensures View(id, u.(password := password)) == View(id, u)
  {
  }

  /** The answer of a write route: status, the collection afterwards, and the
      user returned on success. */
  datatype UserOutcome = UserOutcome(status: Status, store: UserStore, data: Option<UserView>)

  function Refuse(s: Status, users: UserStore): UserOutcome {
    UserOutcome(s, users, None)
  }

  function AnyUser(): User -> bool {
    u => true
  }

  /** `GET /`: every user, in natural order, without passwords. */
  function ListUsers(caller: Option<Caller>, users: UserStore): (r: Reply<seq<UserView>>)
    ensures r.status == Ok <==> AdminGate(caller) == Next
    ensures r.status != Ok ==> r == Reply(AdminGate(caller).status, None)
    ensures r.status == Ok ==> r.data == Some(AllViews(users))
  {
    match AdminGate(caller)
    case Halt(s) => Reply(s, None)
    case Next => Reply(Ok, Some(AllViews(users)))
  }

  /** The listed views: one per stored user, each showing that user, so the
      response's `count` is the number of stored users. */
  function AllViews(users: UserStore): (r: seq<UserView>)
    ensures |r| == |users|
    ensures forall i :: 0 <= i < |r| ==> r[i].id in users && r[i] == View(r[i].id, users[r[i].id])
    ensures forall k :: k in users ==> exists i :: 0 <= i < |r| && r[i].id == k
  {
    var all := Find(users, AnyUser());
    var r := ViewsOf(all);
    FindCount(users, AnyUser());
    assert Hits(users, AnyUser()) == users.Keys;
    forall k | k in users ensures exists i :: 0 <= i < |r| && r[i].id == k {
      assert AnyUser()(users[k]);
      var i :| 0 <= i < |all| && all[i].0 == k;
      assert r[i].id == k;
    }
    r
  }

  function ViewsOf(all: seq<(Id, User)>): (r: seq<UserView>)
    ensures |r| == |all|
    ensures forall i :: 0 <= i < |r| ==> r[i] == View(all[i].0, all[i].1)
  {
    if all == [] then [] else [View(all[0].0, all[0].1)] + ViewsOf(all[1..])
  }

  /** `GET /:id`: a blank or malformed id is 400, an unknown one 404. */
  function GetUser(caller: Option<Caller>, users: UserStore, param: IdParam): (r: Reply<UserView>)
    ensures AdminGate(caller).Halt? ==> r == Reply(AdminGate(caller).status, None)
    ensures AdminGate(caller) == Next ==>
      && (r.status == Ok <==> param.WellFormed? && param.id in users)
      && (param.Malformed? ==> r.status == BadRequest)
      && (param.WellFormed? && param.id !in users ==> r.status == NotFound)
    ensures r.status == Ok ==> r.data == Some(View(param.id, users[param.id]))
  {
    match AdminGate(caller)
    case Halt(s) => Reply(s, None)
    case Next =>
      if param.Malformed? then Reply(BadRequest, None)
      else if param.id !in users then Reply(NotFound, None)
      else Reply(Ok, Some(View(param.id, users[param.id])))
  }

  // ----- saving -----

  /** What `user.save()` ends in: the stored document, a `ValidationError`, or
      the error the password hook passes to `next`. */
  datatype SaveResult = Saved(user: User) | Invalid | HashFailed

  /** `user.save()`: the built-in validation hook runs first, on the document as
      its setters left it; then the password hook. `None` stands for a path
      whose value its `enum` validator refuses. */
  function SaveUser(candidate: Option<User>, passwordModified: bool, hash: Hasher): (r: SaveResult)
    ensures r == Invalid <==> candidate.None? || !PassesUserSchema(candidate.value)
    ensures r == HashFailed <==> candidate.Some? && PassesUserSchema(candidate.value) && PreSave(candidate.value, passwordModified, hash).None?
    ensures r.Saved? ==> r.user == PreSave(candidate.value, passwordModified, hash).value
  {
    if candidate.None? || !PassesUserSchema(candidate.value) then Invalid
    else
      match PreSave(candidate.value, passwordModified, hash)
      case None => HashFailed
      case Some(u) => Saved(u)
  }

  /** A saved user passes the schema and keeps its name and email; it is valid
      when the hasher only produces bcrypt digests and the name and email are
      in their setters' normal form. */
  lemma {:induction false} SavedUserIsValid(candidate: Option<User>, passwordModified: bool, hash: Hasher)
    requires candidate.Some? && passwordModified ==> ProducesBcrypt(hash, candidate.value.password)
    requires SaveUser(candidate, passwordModified, hash).Saved?
    ensures PassesUserSchema(SaveUser(candidate, passwordModified, hash).user)
    ensures SaveUser(candidate, passwordModified, hash).user.email == candidate.value.email
    ensures SaveUser(candidate, passwordModified, hash).user.fullName == candidate.value.fullName
    ensures Trimmed(candidate.value.fullName) && Normalized(candidate.value.email) ==>
      Valid(SaveUser(candidate, passwordModified, hash).user)
  {
    var c := candidate.value;
    var u := SaveUser(candidate, passwordModified, hash).user;
    if u.password != c.password {
      assert StartsWith(u.password, "$2b$");
    }
  }

  /** A user other than `self` holds `email`. */
  predicate EmailTaken(users: UserStore, email: string, self: Option<Id>) {
    exists k :: k in users && Some(k) != self && users[k].email == email
  }

  // ----- create -----

  /** `gender` in a body: absent, JSON `null`, or a value. */
  datatype GenderField = GenderUndefined | GenderNull | GenderValue(s: string)

  /** The body fields create and update read; `None` is `undefined`. */
  datatype UserBody = UserBody(
    fullName: Option<string>,
    email: Option<string>,
    password: Option<string>,
    role: Option<string>,
    gender: GenderField,
    status: Option<string>)

  /** `gender || null`: a non-empty value is validated, anything else is `null`. */
  function CreateGender(g: GenderField): (r: Option<Option<Gender>>)
    ensures !(g.GenderValue? && g.s != []) ==> r == Some(None)
    ensures g.GenderValue? && g.s != [] ==> (r.Some? <==> ParseGender(g.s).Some?)
    ensures g.GenderValue? && g.s != [] && r.Some? ==> r.value == ParseGender(g.s)
  {
    if g.GenderValue? && g.s != [] then
      match ParseGender(g.s)
      case None => None
      case Some(x) => Some(Some(x))
    else Some(None)
  }

  /** The document `new User(userData)` holds before saving: setters applied,
      defaults filled in, `None` if an enum path is refused. */
  function NewUser(body: UserBody): (r: Option<User>)
    requires Present(body.fullName) && Present(body.email) && Present(body.password)
    ensures r.Some? <==>
      && (!Present(body.role) || ParseRole(body.role.value).Some?)
      && (!Present(body.status) || ParseStatus(body.status.value).Some?)
      && CreateGender(body.gender).Some?
    ensures r.Some? ==>
      && r.value.fullName == Trim(body.fullName.value)
      && r.value.email == Normalize(body.email.value)
      && r.value.password == body.password.value
      && r.value.role == (if Present(body.role) then ParseRole(body.role.value).value else DefaultRole)
      && r.value.status == (if Present(body.status) then ParseStatus(body.status.value).value else DefaultStatus)
      && (!(body.gender.GenderValue? && body.gender.s != []) ==> r.value.gender == None)
      && (body.gender.GenderValue? && body.gender.s != [] ==> r.value.gender == ParseGender(body.gender.s))
  {
    var role := if Present(body.role) then ParseRole(body.role.value) else Some(DefaultRole);
    var status := if Present(body.status) then ParseStatus(body.status.value) else Some(DefaultStatus);
    var gender := CreateGender(body.gender);
    if role.None? || status.None? || gender.None? then None
    else Some(User(Trim(body.fullName.value), Normalize(body.email.value), body.password.value, role.value, gender.value, status.value))
  }

  /** `POST /create`: missing name, email or password is 400; an email already in
      use (compared lower-cased) is 400; a failed save is 500; otherwise the user
      is stored under the fresh id `newId`. */
  function CreateUser(caller: Option<Caller>, users: UserStore, body: UserBody, hash: Hasher, newId: Id): (r: UserOutcome)
    ensures AdminGate(caller).Halt? ==> r == Refuse(AdminGate(caller).status, users)
    ensures r.status != Created ==> r.store == users && r.data.None?
    ensures AdminGate(caller) == Next ==>
      (r.status == BadRequest <==>
        !Present(body.fullName) || !Present(body.email) || !Present(body.password) ||
        EmailTaken(users, Normalize(body.email.value), None))
    ensures (AdminGate(caller) == Next && Present(body.fullName) && Present(body.email) && Present(body.password) &&
             !EmailTaken(users, Normalize(body.email.value), None) &&
             (!SaveUser(NewUser(body), true, hash).Saved? || newId in users)) ==> r.status == ServerError
    ensures r.status == Created <==>
      && AdminGate(caller) == Next
      && Present(body.fullName) && Present(body.email) && Present(body.password)
      && !EmailTaken(users, Normalize(body.email.value), None)
      && SaveUser(NewUser(body), true, hash).Saved?
      && newId !in users
    ensures r.status == Created ==>
      && r.store == users[newId := SaveUser(NewUser(body), true, hash).user]
      && r.data == Some(View(newId, r.store[newId]))
  {
    match AdminGate(caller)
    case Halt(s) => Refuse(s, users)
    case Next =>
      if !Present(body.fullName) || !Present(body.email) || !Present(body.password) then Refuse(BadRequest, users)
      else if EmailTaken(users, Normalize(body.email.value), None) then Refuse(BadRequest, users)
      else
        match SaveUser(NewUser(body), true, hash)
        case Invalid => Refuse(ServerError, users)
        case HashFailed => Refuse(ServerError, users)
        case Saved(u) =>
          if newId in users then Refuse(ServerError, users)
          else UserOutcome(Created, users[newId := u], Some(View(newId, u)))
  }

  /** The defaults of create: role learner, gender `null`, status active; the
      password is stored as its digest, never as the plaintext. */
  lemma {:induction false} CreateDefaults(caller: Option<Caller>, users: UserStore, body: UserBody, hash: Hasher, newId: Id)
    requires ProducesBcrypt(hash, body.password.GetOr([]))
    requires CreateUser(caller, users, body, hash, newId).status == Created
    requires body.role.None? && body.status.None? && body.gender.GenderUndefined?
    ensures
      var u := CreateUser(caller, users, body, hash, newId).store[newId];
      && u.role == Learner && u.gender == None && u.status == Active
      && u.email == Normalize(body.email.value)
      && HasBcryptPrefix(u.password)
  {
    var c := NewUser(body).value;
    PreSaveStoresDigest(c, hash);
  }

  // ----- update -----

  /** `if (v) user.path = v` for a path whose value is taken as it is. */
  function IfTruthy(v: Option<string>, current: string): string {
    if Present(v) then v.value else current
  }

  /** `if (gender !== undefined) user.gender = gender`, with `Some(None)` for
      `null` and `None` for a value the `enum` validator refuses. */
  function UpdateGender(g: GenderField, current: Option<Gender>): (r: Option<Option<Gender>>)
    ensures g.GenderUndefined? ==> r == Some(current)
    ensures g.GenderNull? ==> r == Some(None)
    ensures g.GenderValue? ==> (r.Some? <==> ParseGender(g.s).Some?)
    ensures g.GenderValue? && r.Some? ==> r.value == ParseGender(g.s)
  {
    match g
    case GenderUndefined => Some(current)
    case GenderNull => Some(None)
    case GenderValue(s) =>
      match ParseGender(s)
      case None => None
      case Some(x) => Some(Some(x))
  }

  /** The document after the update's assignments: `full_name`, `email`,
      `password`, `role` and `status` only when the value is truthy, `gender`
      whenever it is not `undefined`. */
  function Assigned(cur: User, body: UserBody): (r: Option<User>)
    ensures r.Some? <==>
      && (!Present(body.role) || ParseRole(body.role.value).Some?)
      && (!Present(body.status) || ParseStatus(body.status.value).Some?)
      && UpdateGender(body.gender, cur.gender).Some?
    ensures r.Some? ==>
      && (Present(body.fullName) ==> r.value.fullName == Trim(body.fullName.value))
      && (Present(body.email) ==> r.value.email == Normalize(body.email.value))
      && (Present(body.password) ==> r.value.password == body.password.value)
      && (Present(body.role) ==> r.value.role == ParseRole(body.role.value).value)
      && (Present(body.status) ==> r.value.status == ParseStatus(body.status.value).value)
      && (body.gender.GenderValue? ==> r.value.gender == ParseGender(body.gender.s))
      && (body.gender.GenderNull? ==> r.value.gender == None)
    ensures r.Some? ==>
      && (!Present(body.fullName) ==> r.value.fullName == cur.fullName)
      && (!Present(body.email) ==> r.value.email == cur.email)
      && (!Present(body.password) ==> r.value.password == cur.password)
      && (!Present(body.role) ==> r.value.role == cur.role)
      && (!Present(body.status) ==> r.value.status == cur.status)
      && (body.gender.GenderUndefined? ==> r.value.gender == cur.gender)
  {
    var role := if Present(body.role) then ParseRole(body.role.value) else Some(cur.role);
    var status := if Present(body.status) then ParseStatus(body.status.value) else Some(cur.status);
    var gender := UpdateGender(body.gender, cur.gender);
    if role.None? || status.None? || gender.None? then None
    else
      Some(User(
        if Present(body.fullName) then Trim(body.fullName.value) else cur.fullName,
        if Present(body.email) then Normalize(body.email.value) else cur.email,
        IfTruthy(body.password, cur.password),
        role.value, gender.value, status.value))
  }

  /** `isModified('password')` after `if (password) user.password = password`:
      assigning the value the path already holds does not mark it modified. */
  function PasswordModified(cur: User, body: UserBody): bool {
    Present(body.password) && body.password.value != cur.password
  }

  /** `PUT /:id/update`: id format (400), existence (404), an email held by
      another user (400), then the save, whose `ValidationError` is 400 and whose
      hashing error is 500. Only a successful save is written. */
  function UpdateUser(caller: Option<Caller>, users: UserStore, param: IdParam, body: UserBody, hash: Hasher): (r: UserOutcome)
    ensures AdminGate(caller).Halt? ==> r == Refuse(AdminGate(caller).status, users)
    ensures r.status != Ok ==> r.store == users && r.data.None?
    ensures AdminGate(caller) == Next ==>
      && (param.Malformed? ==> r.status == BadRequest)
      && (param.WellFormed? && param.id !in users ==> r.status == NotFound)
      && ((param.WellFormed? && param.id in users && Present(body.email) &&
           EmailTaken(users, Normalize(body.email.value), Some(param.id)))
          ==> r.status == BadRequest)
    ensures (AdminGate(caller) == Next && param.WellFormed? && param.id in users &&
             !(Present(body.email) && EmailTaken(users, Normalize(body.email.value), Some(param.id)))) ==>
      var saved := SaveUser(Assigned(users[param.id], body), PasswordModified(users[param.id], body), hash);
      && (saved.Invalid? ==> r.status == BadRequest)
      && (saved.HashFailed? ==> r.status == ServerError)
    ensures r.status == Ok <==>
      && AdminGate(caller) == Next && param.WellFormed? && param.id in users
      && (Present(body.email) ==> !EmailTaken(users, Normalize(body.email.value), Some(param.id)))
      && SaveUser(Assigned(users[param.id], body), PasswordModified(users[param.id], body), hash).Saved?
    ensures r.status == Ok ==>
      && r.store == users[param.id := SaveUser(Assigned(users[param.id], body), PasswordModified(users[param.id], body), hash).user]
      && r.data == Some(View(param.id, r.store[param.id]))
  {
    match AdminGate(caller)
    case Halt(s) => Refuse(s, users)
    case Next =>
      if param.Malformed? then Refuse(BadRequest, users)
      else if param.id !in users then Refuse(NotFound, users)
      else if Present(body.email) && EmailTaken(users, Normalize(body.email.value), Some(param.id)) then Refuse(BadRequest, users)
      else
        var cur := users[param.id];
        match SaveUser(Assigned(cur, body), PasswordModified(cur, body), hash)
        case Invalid => Refuse(BadRequest, users)
        case HashFailed => Refuse(ServerError, users)
        case Saved(u) => UserOutcome(Ok, users[param.id := u], Some(View(param.id, u)))
  }

  /** An update that gives no field saves the stored user back unchanged, even
      one whose name or email was stored by other means without the setters:
      validation checks only the `required` paths. */
  lemma EmptyUpdateKeepsUser(caller: Option<Caller>, users: UserStore, id: Id, canonical: bool, hash: Hasher)
    requires AdminGate(caller) == Next && id in users && PassesUserSchema(users[id])
    ensures
      var r := UpdateUser(caller, users, WellFormed(id, canonical), UserBody(None, None, None, None, GenderUndefined, None), hash);
      r.status == Ok && r.store == users
  {
  }

  /** Re-submitting a user's own email is not a conflict: in a store with unique
      emails, no other user holds it. */
  lemma OwnEmailIsNotTaken(users: UserStore, id: Id)
    requires EmailsUnique(users) && id in users
    ensures !EmailTaken(users, users[id].email, Some(id))
  {
  }

  /** Sending back the stored password hash does not mark it modified, so it is
      not hashed a second time. */
  lemma {:induction false} ResubmittedHashIsKept(caller: Option<Caller>, users: UserStore, param: IdParam, hash: Hasher)
    requires ValidUsers(users)
    requires AdminGate(caller) == Next && param.WellFormed? && param.id in users
    ensures
      var body := UserBody(None, None, Some(users[param.id].password), None, GenderUndefined, None);
      UpdateUser(caller, users, param, body, hash) == UserOutcome(Ok, users, Some(View(param.id, users[param.id])))
  {
    var cur := users[param.id];
    var body := UserBody(None, None, Some(cur.password), None, GenderUndefined, None);
    assert Assigned(cur, body) == Some(cur);
    assert users[param.id := cur] == users;
  }

  // ----- delete -----

  /** `DELETE /:id/delete` as written: the self-check compares the caller's id,
      printed in canonical form, with the raw path string, so it only recognises
      the caller's own id when spelled canonically. */
  function DeleteUserAsWritten(caller: Option<Caller>, users: UserStore, param: IdParam): (r: Outcome<UserStore>)
    ensures AdminGate(caller).Halt? ==> r == Outcome(AdminGate(caller).status, users)
    ensures r.status != Ok ==> r.store == users
    ensures r.status == Ok ==> param.WellFormed? && param.id in users && r.store == users - {param.id}
    ensures AdminGate(caller) == Next && param.WellFormed? && param.id in users ==>
      (r.status == Ok <==> !(param.canonical && param.id == caller.value.id))
  {
    match AdminGate(caller)
    case Halt(s) => Outcome(s, users)
    case Next =>
      if param.Malformed? then Outcome(BadRequest, users)
      else if param.id !in users then Outcome(NotFound, users)
      else if param.canonical && param.id == caller.value.id then Outcome(BadRequest, users)
      else Outcome(Ok, users - {param.id})
  }

  /** An admin who spells their own id non-canonically (upper-case hex, say)
      deletes their own account. */
  lemma {:induction false} AdminCanDeleteSelfAsWritten()
    ensures
      var admin := User("Root", "root@x", "h", Admin, None, Active);
      var users := map[5 := admin];
      var me := Some(Caller(5, admin));
      && DeleteUserAsWritten(me, users, WellFormed(5, false)).status == Ok
      && 5 !in DeleteUserAsWritten(me, users, WellFormed(5, false)).store
      && DeleteUser(me, users, WellFormed(5, false)).status == BadRequest
  {
    var admin := User("Root", "root@x", "h", Admin, None, Active);
    var users := map[5 := admin];
    assert (users - {5}).Keys == {};
  }

  /** `DELETE /:id/delete` with the self-check on the parsed id: 400 for a blank
      or malformed id, 404 for an unknown one, 400 for the caller's own account
      however it is spelled, else exactly that user is removed. */
  function DeleteUser(caller: Option<Caller>, users: UserStore, param: IdParam): (r: Outcome<UserStore>)
    ensures AdminGate(caller).Halt? ==> r == Outcome(AdminGate(caller).status, users)
    ensures r.status != Ok ==> r.store == users
    ensures AdminGate(caller) == Next ==>
      && (param.Malformed? ==> r.status == BadRequest)
      && (param.WellFormed? && param.id !in users ==> r.status == NotFound)
      && (param.WellFormed? && param.id in users && param.id == caller.value.id ==> r.status == BadRequest)
      && (r.status == Ok <==> param.WellFormed? && param.id in users && param.id != caller.value.id)
    ensures r.status == Ok ==> r.store.Keys == users.Keys - {param.id}
    ensures forall k :: k in r.store ==> k in users && r.store[k] == users[k]
  {
    match AdminGate(caller)
    case Halt(s) => Outcome(s, users)
    case Next =>
      if param.Malformed? then Outcome(BadRequest, users)
      else if param.id !in users then Outcome(NotFound, users)
      else if param.id == caller.value.id then Outcome(BadRequest, users)
      else Outcome(Ok, users - {param.id})
  }

  /** No admin can remove their own account. */
  lemma CallerSurvivesDelete(caller: Caller, users: UserStore, param: IdParam)
    requires caller.id in users
    ensures caller.id in DeleteUser(Some(caller), users, param).store
  {
  }

  /** The two agree on every canonically spelled id. */
  lemma DeleteAgreesOnCanonicalIds(caller: Option<Caller>, users: UserStore, param: IdParam)
    requires param.WellFormed? ==> param.canonical
    ensures DeleteUserAsWritten(caller, users, param) == DeleteUser(caller, users, param)
  {
  }

  // ----- the collection invariant -----

  /** Create keeps emails unique, lower-cased and trimmed. */
  lemma {:induction false} CreateKeepsUsersValid(caller: Option<Caller>, users: UserStore, body: UserBody, hash: Hasher, newId: Id)
    requires ValidUsers(users)
    requires ProducesBcrypt(hash, body.password.GetOr([]))
    ensures ValidUsers(CreateUser(caller, users, body, hash, newId).store)
  {
    var r := CreateUser(caller, users, body, hash, newId);
    if r.status == Created {
      var u := SaveUser(NewUser(body), true, hash).user;
      NewUserSavesValid(body, hash);
      assert r.store == users[newId := u];
      assert !EmailTaken(users, u.email, None);
      forall i, j | i in r.store && j in r.store && i != j ensures r.store[i].email != r.store[j].email {
        if i == newId {
          assert j in users;
        } else if j == newId {
          assert i in users;
        }
      }
    }
  }

  /** The user create saves is valid and holds the normalised email. */
  lemma {:induction false} NewUserSavesValid(body: UserBody, hash: Hasher)
    requires Present(body.fullName) && Present(body.email) && Present(body.password)
    requires ProducesBcrypt(hash, body.password.GetOr([]))
    requires SaveUser(NewUser(body), true, hash).Saved?
    ensures Valid(SaveUser(NewUser(body), true, hash).user)
    ensures SaveUser(NewUser(body), true, hash).user.email == Normalize(body.email.value)
  {
    var c := NewUser(body);
    assert Trimmed(c.value.fullName) && Normalized(c.value.email);
    SavedUserIsValid(c, true, hash);
  }

  /** Update keeps emails unique, lower-cased and trimmed. */
  lemma {:induction false} UpdateKeepsUsersValid(caller: Option<Caller>, users: UserStore, param: IdParam, body: UserBody, hash: Hasher)
    requires ValidUsers(users)
    requires ProducesBcrypt(hash, body.password.GetOr([]))
    ensures ValidUsers(UpdateUser(caller, users, param, body, hash).store)
  {
    var r := UpdateUser(caller, users, param, body, hash);
    if r.status == Ok {
      var id := param.id;
      var cur := users[id];
      var c := Assigned(cur, body);
      SavedUserIsValid(c, PasswordModified(cur, body), hash);
      var u := r.store[id];
      forall i, j | i in r.store && j in r.store && i != j ensures r.store[i].email != r.store[j].email {
        if i == id {
          assert j in users && j != id;
        } else if j == id {
          assert i in users && i != id;
        }
      }
    }
  }

  /** Delete keeps the collection valid. */
  lemma DeleteKeepsUsersValid(caller: Option<Caller>, users: UserStore, param: IdParam)
    requires ValidUsers(users)
    ensures ValidUsers(DeleteUser(caller, users, param).store)
  {
  }
}

=== FILE: wrappers.dfy ===
/** Optional values: an absent request field, a record a query did not find,
    or an operation of an external collaborator that threw. */
module Wrappers {

  datatype Option<+T> = None | Some(value: T) {

    /** The carried value, or `default` when there is none. */
    function GetOr(default: T): T {
      match this
      case Some(v) => v
      case None => default
    }
  }
}
